=== FILE: README.md ===
# Banking proof guardian — a Dafny model

The banking proof guardian is a demonstration of how a bank could show a
regulator that its regulated savings accounts stay under their legal ceilings
(Article R221-2 of the French Monetary and Financial Code) without disclosing
balances. It has these parts:

- **The category table.** Individual accounts have a ceiling of 22 950 EUR.
  Associations have 76 500 EUR, and large condominiums 100 000 EUR.
- **The application's shared account list.**
- **An account registry page.** It can generate 100 mock accounts, add an
  account, and show statistics.
- **A system overview.** It shows counts by category, a compliance rate,
  average utilisation and an issue alert.
- **A proof generation page.** It steps through four stages.
- **A proof verification page.** It accepts or rejects a proof record.
- **The proof hook.** It calls an edge function.
- **The edge function `zkp-operations`.** It forwards to a Spartan service
  when one is configured. Otherwise it falls back to its own simulation.
- **The Rust Spartan service.**

The model has one Dafny module per part:

| module | models |
|---|---|
| `Common` | option values, JSON values and texts, JavaScript truthiness and property access |
| `AccountTypes` | the category table |
| `AppAccounts` | the application's account list and its three handlers (a class) |
| `SystemOverview` | the overview statistics (functions and lemmas) |
| `AccountManagement` | registry ids, mock generation (a loop), statistics, and the registry page (a class) |
| `ProofVerification` | the verification page: its acceptance rule (functions) and its state (a class) |
| `ProofGeneration` | the generation page: its steps (functions) and its state (a class, with the step loop) |
| `ZkProofHook` | the proof hook's requests and its reading of replies |
| `ZkpEdge` | the edge function: the fallback simulation (with its witness loop as a method), request building, generate/verify, the HTTP handler |
| `SpartanService` | the Rust service's request handler and status codes |
| `ServiceBoundary` | the edge function's requests as the Rust service deserializes and answers them |

The model also proves how the parts fit together:

- **The hook cannot get a proof.** The edge function requires `accounts`,
  `accountTypes` and `accountTypeLimits`. The proof hook sends `accounts` and
  `maxBalance`, so every proof generation from the generation page fails.
- **The Rust service rejects every prove request.** The edge function sends
  `account_limits`, but the service requires `max_balance`. The edge function
  then falls back to its simulation.
- **Verification always passes with the Rust service.** The service answers
  every verify request with "the proof parses". So when the Rust service is
  configured, the proof of a non-compliant batch still verifies as `true`.
- **The verification page rejects the simulated proof record on its own.**
  The edge function's simulated proof record has neither `proof` nor
  `publicSignals`, so pasted alone it is read as neither valid nor compliant.
  (An export that wraps the record together with its signals is a different
  text. `SignalsDecide` decides that case.)
- **Categories named after `Object.prototype` members pass any balance.** The
  edge function looks each account's category up in the request's limit table,
  which is a plain object. A category such as `constructor` or `toString`
  that the table lacks finds the inherited function, which is truthy and not a
  number. So no balance is "greater" than it, and such an account complies
  whatever its balance.
- **The simulation round-trips.** Proving and then verifying with the
  fallback simulation returns the batch's compliance bit.

## Model

| member | source | states |
|---|---|---|
| AccountTypes.GetAccountTypeInfo | src/utils/accountTypes.ts:12-38 | each category's entry carries that category as its id, a positive ceiling and the currency EUR |
| AccountTypes.ParseTypeId | src/utils/accountTypes.ts:2 | a recognised wire identifier decodes to the category that has exactly that identifier |
| AccountTypes.TableListsEveryTypeOnce | src/utils/accountTypes.ts:12-34 | the table has exactly three entries, every category appears, and none twice |
| AccountTypes.LimitsAscend | src/utils/accountTypes.ts:12-34 | the ceilings are 22950, 76500 and 100000, strictly increasing in table order |
| AccountTypes.TypeIdRoundTrip | src/utils/accountTypes.ts:2 | decoding a category's identifier gives the category back; distinct categories have distinct identifiers |
| AppAccounts.Replaced | src/App.tsx:23 | the mapped list has the same length; the element at the index is the update and every other element is unchanged |
| AppAccounts.ReplacedUpdatesOneIndex | src/App.tsx:22-24 | replacing at an index in range is a one-element update; an index out of range leaves the list as it was |
| AppAccounts.Without | src/App.tsx:27 | no contract; see WithoutRemovesOneIndex |
| AppAccounts.WithoutRemovesOneIndex | src/App.tsx:26-28 | filtering out an index in range removes exactly that element and keeps the others in order; out of range nothing changes |
| AppAccounts.AccountList.constructor | src/App.tsx:15 | the list starts empty |
| AppAccounts.AccountList.AddAccount | src/App.tsx:18-20 | the account is appended and the previous list is a prefix of the new one |
| AppAccounts.AccountList.UpdateAccount | src/App.tsx:22-24 | the list becomes the old list with one index replaced, or is unchanged for an index out of range |
| AppAccounts.AccountList.DeleteAccount | src/App.tsx:26-28 | the list becomes the old list without that index, or is unchanged for an index out of range |
| SystemOverview.CountOfType | src/components/SystemOverview.tsx:16-20 | a category's count never exceeds the number of accounts |
| SystemOverview.AccountsByType | src/components/SystemOverview.tsx:16-20 | no contract; see AccountsByTypeCounts and ByTypeSumsToTotal |
| SystemOverview.AccountsByTypeCounts | src/components/SystemOverview.tsx:16-20 | the tally built by the reduce holds, for each category, exactly the number of accounts of that category, and has a key iff some account has it |
| SystemOverview.ByTypeSumsToTotal | src/components/SystemOverview.tsx:15-20 | the three category counts of the tally add up to the total number of accounts |
| SystemOverview.CountsSumToLength | src/components/SystemOverview.tsx:17 | every account falls into exactly one category once a missing category reads as individual |
| SystemOverview.IsCompliant | src/components/SystemOverview.tsx:25 | no contract; see AllCompliantIffFullCount and AlertIffSomeNonCompliant |
| SystemOverview.CompliantAccounts | src/components/SystemOverview.tsx:22-30 | the compliant count never exceeds the number of accounts |
| SystemOverview.AllCompliantIffFullCount | src/components/SystemOverview.tsx:25-30 | the compliant count equals the total iff every account is at or under its category ceiling |
| SystemOverview.Ratio | src/components/SystemOverview.tsx:31 | a count over a positive total is a fraction between 0 and 1, equal to 1 only when the count is the total |
| SystemOverview.ComplianceRate | src/components/SystemOverview.tsx:31 | no contract; see RateIsPercentage and AlertIffSomeNonCompliant |
| SystemOverview.AlertShown | src/components/SystemOverview.tsx:193 | no contract; see AlertIffSomeNonCompliant |
| SystemOverview.RateIsPercentage | src/components/SystemOverview.tsx:31 | the compliance rate lies between 0 and 100 |
| SystemOverview.AlertIffSomeNonCompliant | src/components/SystemOverview.tsx:193-203 | the issue alert shows iff some account exceeds its ceiling; it then reports at least one account, and otherwise zero |
| SystemOverview.Utilization | src/components/SystemOverview.tsx:26 | no contract; see CompliantIffUtilizationAtMostHundred |
| SystemOverview.AverageUtilization | src/components/SystemOverview.tsx:32-34 | no contract; see AllCompliantAverageAtMostHundred and EmptyOverview |
| SystemOverview.TypePercentage | src/components/SystemOverview.tsx:97 | no contract; see TypeSharesSumToHundred and EmptyOverview |
| SystemOverview.CompliantIffUtilizationAtMostHundred | src/components/SystemOverview.tsx:25-26 | an account is within its ceiling iff its utilisation is at most 100% |
| SystemOverview.UtilizationSumBound | src/components/SystemOverview.tsx:26-33 | when every account complies, the summed utilisations are at most 100 per account |
| SystemOverview.AllCompliantAverageAtMostHundred | src/components/SystemOverview.tsx:32-34 | when every account complies, the average utilisation is at most 100% |
| SystemOverview.SharesOfTotal | src/components/SystemOverview.tsx:97 | counts that make up a positive total have shares adding up to 100 |
| SystemOverview.TypeSharesSumToHundred | src/components/SystemOverview.tsx:95-97 | over a non-empty list each category's share is a percentage and the three shares add up to 100 |
| SystemOverview.EmptyOverview | src/components/SystemOverview.tsx:31-34 | with no accounts the rate is 100, utilisation and category shares are 0, and no alert shows |
| AccountManagement.Digits | src/components/AccountManager.tsx:51 | the decimal form of a number is non-empty, all digits, and has no leading zero unless the number is 0 |
| AccountManagement.DigitsRoundTrip | src/components/AccountManager.tsx:51 | reading the decimal form back gives the number |
| AccountManagement.ZerosValue | src/components/AccountManager.tsx:51 | a run of zeros is all digits and reads as 0 |
| AccountManagement.LeadingZerosValue | src/components/AccountManager.tsx:51 | zero-padding on the left does not change the value a digit string reads as |
| AccountManagement.PadStart | src/components/AccountManager.tsx:51 | the padded string has the requested width (or the original length if longer), ends with the original and is filled with the fill character before it |
| AccountManagement.AccountId | src/components/AccountManager.tsx:80 | no contract; see IdRoundTrip, AccountIdInjective and the mock id lemmas |
| AccountManagement.IdRoundTrip | src/components/AccountManager.tsx:80 | an account id reads back as its number; it is the prefix plus at least three digits |
| AccountManagement.AccountIdInjective | src/components/AccountManager.tsx:80 | two account ids are equal iff their numbers are |
| AccountManagement.FirstMockId | src/components/AccountManager.tsx:43-51 | the first mock account's id is ACC-001 |
| AccountManagement.LastMockId | src/components/AccountManager.tsx:43-51 | the hundredth mock account's id is ACC-100 |
| AccountManagement.NextAddedId | src/components/AccountManager.tsx:80 | the first account added after the mock list gets ACC-101 |
| AccountManagement.AppendKeepsInvariants | src/components/AccountManager.tsx:79-88 | appending an account numbered after the list with its flag computed from its ceiling keeps ids following positions and flags agreeing with ceilings |
| AccountManagement.IdsDistinct | src/components/AccountManager.tsx:80 | ids that follow positions are pairwise distinct |
| AccountManagement.RolledType | src/components/AccountManager.tsx:44 | no contract; see MockAccounts |
| AccountManagement.MockAccount | src/components/AccountManager.tsx:44-57 | no contract; see MockAccounts, MockBalancesStraddleLimit and FirstMockId |
| AccountManagement.RolledBalance | src/components/AccountManager.tsx:46 | a rolled balance is at least 1000 and less than 1000 plus 1.2 times the category ceiling |
| AccountManagement.MockBalancesStraddleLimit | src/components/AccountManager.tsx:46 | for every category, the lowest roll gives a compliant balance and a high roll (0.99) a balance above the ceiling |
| AccountManagement.MockAccounts | src/components/AccountManager.tsx:39-58 | the loop builds exactly 100 accounts, the i-th from the i-th draw, with ids ACC-001 upward, flags that agree with the ceilings, and balances of at least 1000 |
| AccountManagement.CountCompliant | src/components/AccountManager.tsx:105 | the compliant count never exceeds the total |
| AccountManagement.CountNonCompliant | src/components/AccountManager.tsx:106 | the non-compliant count never exceeds the total |
| AccountManagement.CompliantPartition | src/components/AccountManager.tsx:103-107 | compliant and non-compliant counts add up to the total |
| AccountManagement.NoIssuesIffAllFlagged | src/components/AccountManager.tsx:105-106 | there are no non-compliant accounts iff every account is flagged compliant |
| AccountManagement.ComplianceStats | src/components/AccountManager.tsx:103-107 | the summary's total is the list length, its two counts partition it, and with agreeing flags it reports no issue iff every balance is within its ceiling |
| AccountManagement.CountOfType | src/components/AccountManager.tsx:111 | a category's count never exceeds the total |
| AccountManagement.CompliantOfType | src/components/AccountManager.tsx:112 | a category's compliant count never exceeds its count |
| AccountManagement.TypeCountsPartition | src/components/AccountManager.tsx:109-113 | the category counts add up to the total, and the per-category compliant counts to the compliant count |
| AccountManagement.StatsByType | src/components/AccountManager.tsx:109-113 | one row per category in table order carrying that category's entry; counts add up to the total and compliant counts to the compliant count |
| AccountManagement.TableRows | src/components/AccountManager.tsx:298 | the table shows a prefix of the list of at most ten rows, and the whole list when it has ten or fewer |
| AccountManagement.NoteIffRowsOmitted | src/components/AccountManager.tsx:332-335 | the "showing 10 of N" note appears iff rows are omitted, and then exactly ten rows show |
| AccountManagement.AccountManager.constructor | src/components/AccountManager.tsx:27-29 | no accounts, an empty balance field, the individual category selected, and no toast |
| AccountManagement.AccountManager.GenerateMockAccounts | src/components/AccountManager.tsx:39-60 | the list is replaced by the 100 mock accounts built from the draws; the form is untouched |
| AccountManagement.AccountManager.SetNewBalance | src/components/AccountManager.tsx:249 | the balance field takes the typed text and nothing else changes |
| AccountManagement.AccountManager.SelectAccountType | src/components/AccountManager.tsx:228 | the selected category changes and nothing else does |
| AccountManagement.AccountManager.AddAccount | src/components/AccountManager.tsx:62-97 | an empty or non-numeric balance leaves the list unchanged and raises "Invalid Balance"; otherwise one account is appended with the next id, the selected category and a flag from its ceiling, the field is cleared, and the toast names the category and id; ids stay distinct |
| AccountManagement.RegistryIdsDistinct | src/components/AccountManager.tsx:80 | no two accounts in the registry share an id |
| ProofVerification.Evaluate | src/components/ComplianceVerifier.tsx:47-54 | reading a parsed proof throws exactly for null; compliance needs a publicSignals field, validity needs both proof and publicSignals |
| ProofVerification.Check | src/components/ComplianceVerifier.tsx:43-54 | only text that parses to a non-null JSON value yields a record |
| ProofVerification.Verdict | src/components/ComplianceVerifier.tsx:58-76 | "invalid format" iff no record; "successful" iff the record is valid and compliant; "failed" iff a record is not both |
| ProofVerification.ComplianceVerifier.constructor | src/components/ComplianceVerifier.tsx:22-24 | empty proof text, not verifying, no result, no toast |
| ProofVerification.ComplianceVerifier.VerifyProof | src/components/ComplianceVerifier.tsx:27-79 | blank text only raises "no proof data"; otherwise the page stops verifying with the record of the text as its result and the matching toast |
| ProofVerification.ComplianceVerifier.SetProofData | src/components/ComplianceVerifier.tsx:189 | the text area takes the typed text and nothing else changes |
| ProofVerification.ComplianceVerifier.UploadFile | src/components/ComplianceVerifier.tsx:81-94 | a chosen file replaces the text and names itself in the "uploaded" toast; no file changes nothing |
| ProofVerification.ComplianceVerifier.DropFile | src/components/ComplianceVerifier.tsx:96-112 | only a dropped JSON file replaces the text and names itself in the "dropped" toast; anything else changes nothing |
| ProofVerification.ComplianceVerifier.LoadSampleProof | src/components/ComplianceVerifier.tsx:114-128 | the text becomes the sample proof and the sample toast shows |
| ProofVerification.SampleProof | src/components/ComplianceVerifier.tsx:115-122 | no contract; see SampleProofAccepted and LoadSampleProof |
| ProofVerification.SignalsDecide | src/components/ComplianceVerifier.tsx:48-51 | with an array of signals: compliant iff its first element is the string "1"; valid iff the proof field is truthy |
| ProofVerification.EmptyProofInvalid | src/components/ComplianceVerifier.tsx:48 | an empty-string proof is invalid and the verification fails |
| ProofVerification.EmptySignalsValidNotCompliant | src/components/ComplianceVerifier.tsx:48-51 | an empty signals array is truthy, so a proof with one is valid, but it is not compliant and fails |
| ProofVerification.MissingFieldsDefault | src/components/ComplianceVerifier.tsx:49-52 | missing protocol, count and timestamp read as "unknown", 0 and the current time |
| ProofVerification.UnreadableProofs | src/components/ComplianceVerifier.tsx:43-76 | text that does not parse, and null, give no record and the "invalid format" toast |
| ProofVerification.SampleProofAccepted | src/components/ComplianceVerifier.tsx:114-122 | the sample proof is valid and compliant, and reports protocol "spartan", 100 accounts and its own timestamp |
| ProofVerification.SimulatedRecordRejected | src/components/ComplianceVerifier.tsx:47-51 | the proof record the edge function simulates is read as neither valid nor compliant |
| ProofGeneration.Staged | src/components/ProofGenerator.tsx:94-97 | no contract; see StagedStatuses |
| ProofGeneration.LastStepFailed | src/components/ProofGenerator.tsx:122-129 | no contract; see ProofGenerator.ShowResult |
| ProofGeneration.StagedStatuses | src/components/ProofGenerator.tsx:93-97 | while step i runs it alone is running, the earlier steps are completed and the later ones pending |
| ProofGeneration.ProgressAfter | src/components/ProofGenerator.tsx:100 | progress after a step lies in (0, 80] and reaches 80 exactly after the last step |
| ProofGeneration.ProgressIncreases | src/components/ProofGenerator.tsx:93-101 | progress strictly increases from step to step |
| ProofGeneration.TestAccount | src/components/ProofGenerator.tsx:104-108 | no contract; see TestAccountAtLimit and DeployedRunAlwaysFails |
| ProofGeneration.TestAccountAtLimit | src/components/ProofGenerator.tsx:104-108 | the test account sits exactly at its category ceiling: it complies, one euro more would not, and the edge function's batch rule accepts it |
| ProofGeneration.DeployedRunAlwaysFails | src/components/ProofGenerator.tsx:110-111 | the hook's answer for the test account is always null, whatever the backend |
| ProofGeneration.ProofGenerator.constructor | src/components/ProofGenerator.tsx:25-57 | the four steps pending, progress 0, no proof, individual selected, not authenticated |
| ProofGeneration.ProofGenerator.AuthenticateGovernment | src/components/ProofGenerator.tsx:59-73 | only the demo password grants access; any other raises "invalid credentials" |
| ProofGeneration.ProofGenerator.Logout | src/components/ProofGenerator.tsx:218 | access is withdrawn and nothing else changes |
| ProofGeneration.ProofGenerator.SelectAccountType | src/components/ProofGenerator.tsx:235 | the selected category changes and nothing else does |
| ProofGeneration.ProofGenerator.ShowResult | src/components/ProofGenerator.tsx:113-130 | with a proof from the hook every step completes at 100% and the proof and metadata are stored; without one the last step goes into error and everything else stays |
| ProofGeneration.ProofGenerator.GenerateAccountTypeSpecificProof | src/components/ProofGenerator.tsx:75-131 | without access only the "access required" alert changes; with access the run asks the hook about the selected category's test account at its ceiling, and because the hook's request is always refused, the earlier steps end completed, the last in error at 80%, and no proof is stored |
| ZkProofHook.GenerateProof | src/hooks/useZKProof.ts:37-81 | the hook yields a proof iff the edge function answers 2xx with success |
| ZkProofHook.VerifyProof | src/hooks/useZKProof.ts:83-129 | the hook yields a verdict iff the edge function answers 2xx with success |
| ZkProofHook.GenerateRequestBody | src/hooks/useZKProof.ts:43-49 | no contract; see GenerateAlwaysRejected |
| ZkProofHook.VerifyRequestBody | src/hooks/useZKProof.ts:89-95 | no contract; see ZkProofHook.VerifyProof |
| ZkProofHook.GenerateAlwaysRejected | src/hooks/useZKProof.ts:43-49 | the request the hook sends lacks the inputs the edge function requires, so it is answered with the missing-input error and the hook yields null |
| ZkpEdge.EffectiveLimit | supabase/functions/zkp-operations/index.ts:114 | the limit used is never 0; a missing entry reads as 100000 |
| ZkpEdge.SimulatedVerdict | supabase/functions/zkp-operations/index.ts:135-142 | no contract; see FallbackRoundTrip and FallbackMalformedProof |
| ZkpEdge.CheckWitness | supabase/functions/zkp-operations/index.ts:110-120 | the loop with early exit answers true iff no balance exceeds its limit (0 or missing reads as 100000, an inherited non-number is never exceeded, missing arrays comply) |
| ZkpEdge.CallSpartanService | supabase/functions/zkp-operations/index.ts:64-100 | no contract; see ServeRoundTrip and ServiceBoundary.RustDeploymentAcceptsEveryBatch |
| ZkpEdge.TypeOrDefault | supabase/functions/zkp-operations/index.ts:162 | no contract; see TypesArray |
| ZkpEdge.LimitFor | supabase/functions/zkp-operations/index.ts:163-166 | the limit is never 0; it is the table's own non-zero entry when there is one; it is the inherited non-number exactly when the category is missing from the table and names an Object.prototype member; otherwise 100000 |
| ZkpEdge.SimulatedProof | supabase/functions/zkp-operations/index.ts:124-130 | no contract; see FallbackRoundTrip and ProofVerification.SimulatedRecordRejected |
| ZkpEdge.FallbackSimulation | supabase/functions/zkp-operations/index.ts:102-149 | the simulation always succeeds without error; prove yields a proof and signals and no verdict; verify yields a verdict only |
| ZkpEdge.WitnessData | supabase/functions/zkp-operations/index.ts:161 | one witness entry per account, equal to its balance |
| ZkpEdge.TypesArray | supabase/functions/zkp-operations/index.ts:162 | one category per account, individual when missing |
| ZkpEdge.LimitsArray | supabase/functions/zkp-operations/index.ts:163-166 | one limit per account, the lookup of its category in the table (an own entry, an inherited member, or 100000), never 0 |
| ZkpEdge.ProveRequest | supabase/functions/zkp-operations/index.ts:168-173 | no contract; see ProveRequestMatchesBatchRule and ServiceBoundary.EdgeProveRejectedByRust |
| ZkpEdge.VerifyRequest | supabase/functions/zkp-operations/index.ts:204-208 | no contract; see FallbackRoundTrip and ServiceBoundary.EdgeVerifyAnsweredByRust |
| ZkpEdge.GenerateProof | supabase/functions/zkp-operations/index.ts:152-196 | succeeds iff the service reply succeeds; then it reports the number of accounts and echoes both tables; failures carry a message |
| ZkpEdge.VerifyProof | supabase/functions/zkp-operations/index.ts:199-223 | succeeds iff the reply succeeds; valid iff the reply's result is true (missing is false), and compliance equals validity; failures carry a message |
| ZkpEdge.Serve | supabase/functions/zkp-operations/index.ts:225-312 | preflight answers 200 with no body; otherwise status 200 iff success, else 500 with only a non-empty error |
| ZkpEdge.FallbackProveVerdict | supabase/functions/zkp-operations/index.ts:110-131 | the simulated signal is "1" iff every balance is within its limit, and "0" iff some balance exceeds it |
| ZkpEdge.FallbackVacuousBatch | supabase/functions/zkp-operations/index.ts:110-111 | an empty batch, or a request missing either array, is reported compliant |
| ZkpEdge.FallbackRoundTrip | supabase/functions/zkp-operations/index.ts:124-140 | verifying a simulated proof returns the compliance bit the proof was made with |
| ZkpEdge.FallbackMalformedProof | supabase/functions/zkp-operations/index.ts:134-140 | a non-empty proof text that does not parse gets the random verdict |
| ZkpEdge.ProveRequestMatchesBatchRule | supabase/functions/zkp-operations/index.ts:161-173 | the witness check on the built request agrees with "no account is above the limit its category looks up", inherited members included |
| ZkpEdge.StandardTableCompliance | supabase/functions/zkp-operations/index.ts:163-166 | with the standard ceilings as the table, the batch rule is the category ceiling rule for every account |
| ZkpEdge.ServeRoundTrip | supabase/functions/zkp-operations/index.ts:240-287 | with the simulation, generate answers 200 with the batch's bit and count, and verifying its proof answers the batch's compliance |
| ZkpEdge.InheritedCategoryPassesAnyBalance | supabase/functions/zkp-operations/index.ts:163-166 | an account whose category is missing from the table and names an Object.prototype member complies whatever its balance, and its generated proof says "1" |
| ZkpEdge.ConstructorCategoryExample | supabase/functions/zkp-operations/index.ts:110-166 | with empty tables, a balance of 500000 is reported "1" under the category constructor and "0" under individual |
| ZkpEdge.AllCompliantIgnored | supabase/functions/zkp-operations/index.ts:240-260 | the request's allCompliant flag never changes the answer |
| ZkpEdge.GenerateNeedsAllInputs | supabase/functions/zkp-operations/index.ts:248-251 | generate without accounts, accountTypes and accountTypeLimits is answered with the missing-input error |
| ZkpEdge.VerifyNeedsProofAndSignals | supabase/functions/zkp-operations/index.ts:269-272 | verify without proof and publicSignals is answered with the missing-input error |
| ZkpEdge.UnknownOperationRejected | supabase/functions/zkp-operations/index.ts:289-290 | any other operation is answered with an error naming it |
| SpartanService.ZkpOperations | deployment/rust-spartan-service/src/main.rs:96-160 | success carries no error and a failure only an error; a successful reply has a proof iff it proves and a verdict iff it verifies |
| SpartanService.StatusCode | deployment/rust-spartan-service/src/main.rs:162-166 | 200 iff success, 400 iff failure |
| SpartanService.GenerateSpartanProof | deployment/rust-spartan-service/src/main.rs:209-225 | no contract; see ProofRecordContents and ProveIgnoresBalances |
| SpartanService.VerifySpartanProof | deployment/rust-spartan-service/src/main.rs:227-235 | no contract; see VerifyChecksOnlyParsing |
| SpartanService.ProveNeedsWitnessAndMaxBalance | deployment/rust-spartan-service/src/main.rs:101-124 | prove succeeds iff witness_data and max_balance are present, otherwise the missing-input failure |
| SpartanService.ProveIgnoresBalances | deployment/rust-spartan-service/src/main.rs:103-112 | a prove succeeds with signal "1" even when a balance exceeds max_balance, and its proof depends only on the batch size and max_balance |
| SpartanService.ProofRecordContents | deployment/rust-spartan-service/src/main.rs:209-225 | the proof parses and records the batch size, max_balance and protocol spartan-v1 |
| SpartanService.VerifyChecksOnlyParsing | deployment/rust-spartan-service/src/main.rs:126-148 | verify succeeds iff both inputs are present; its verdict is "the proof parses as JSON", whatever the public inputs |
| SpartanService.UnknownOperation | deployment/rust-spartan-service/src/main.rs:150-159 | any other operation is a failure naming it, with status 400 |
| ServiceBoundary.Deserialize | deployment/rust-spartan-service/src/main.rs:7-14 | a request is rejected iff a witness value does not fit a 32-bit integer; otherwise every field carries over and max_balance is absent |
| ServiceBoundary.RustReply | supabase/functions/zkp-operations/index.ts:77-93 | no contract; see EdgeProveRejectedByRust and EdgeVerifyAnsweredByRust |
| ServiceBoundary.EdgeProveRejectedByRust | supabase/functions/zkp-operations/index.ts:168-173 | every prove request of the edge function is refused by the service (missing max_balance, status 400), so the edge function falls back |
| ServiceBoundary.EdgeVerifyAnsweredByRust | supabase/functions/zkp-operations/index.ts:204-208 | every verify request of the edge function is answered with "the proof parses" |
| ServiceBoundary.RustDeploymentAcceptsEveryBatch | supabase/functions/zkp-operations/index.ts:64-100 | with the service configured, the generate/verify round trip verifies every batch as true, even one whose bit is 0 |

## Left out

- HTTP transport is outside the model: CORS headers, the Rust service's health, root, 404 and preflight routes, its logging, and the `processing_time_ms` and timestamp fields. Each operation is modelled as a function from request to reply, and the edge function's fetch is the `Backend` parameter.
- Randomness is a parameter. This covers the mock account draws, the salts and hex hashes, the edge function's verdict for a malformed proof, and the sample proof's hex digits. Two random values are not modelled at all: the verification page's `verificationTime`, and the random `pi_a`, `pi_b` and `pi_c` of the edge function's simulated proof. `ZkpEdge.SimulatedProof` keeps only the protocol and the compliance flag.
- The clock is a parameter (`now`).
- Timers are not modelled: the `setTimeout` delays, the loading, `isGenerating` and `isVerifying` intermediate states, and the pauses between proof steps. Each handler is modelled as one atomic update. The verification page's `isVerifying` flag is kept only as an end state.
- JSON serialization and parsing are abstracted by `Text`. A text holding an encoded value carries that value, not its characters. So `JSON.stringify` layout and the exact characters of the sample proof are not modelled. The generation page keeps the proof record itself rather than its serialized text.
- `JSON.parse` and `serde_json::from_str` are modelled by one `Parse` that accepts the same texts, so differences between the two parsers are not modelled. One example is serde_json's default nesting limit of 128. Whether a text parses is fixed by how it is represented: a `Chars` text is taken not to parse. Lemmas about `Chars` texts therefore say nothing about a string such as `{}`.
- JSON numbers are integers. `Number()` on the balance field is the `toNumber` parameter. Balances are integers, so fractional balances are not modelled.
- Floating point is modelled as exact rationals (`real`) for the compliance rate, utilisation and progress, so rounding is not modelled.
- Presentation is not modelled: JSX layout, tabs, badges, `formatCurrency`, toasts' wording beyond the notice kind, console output, and the hook's toasts.
- The administrator login (`AdminLogin`, `useAdminAuth`) and the registry's effect that generates mock accounts after login are not modelled. `GenerateMockAccounts` is the effect's body.
- `WasmIntegration` and `SpartanServiceConfig` are not part of this model.
- The overview is not modelled for accounts whose category string is not one of the three; categories there are the three known ones or absent. For most such strings `getAccountTypeInfo(type).limit` throws. For a name inherited from `Object.prototype` it is `undefined`, and the account counts as non-compliant.
- The registry page keeps its own list, separate from the application's list in `AppAccounts`. The application's list feeds only the overview. The model keeps them separate in the same way.
- The hook's `isGenerating` flag and the proof returned through React state are left out. `ZkProofHook.GenerateProof` returns the proof record the hook resolves to, or `None` for its `null`.
- ZkProofHook.VerifyProof: only the verdict is modelled. The hook resolves to `{isValid, metadata}`; the model returns `isValid` alone and drops the metadata. A reply without `verificationResult` reads as `false`, where the hook would resolve `isValid` to `undefined`.
- ZkpEdge.Serve: the request body is taken to have the shape its TypeScript interface declares. `operation` is a string, `accounts` an array of objects with numeric balances, `accountTypes` and `accountTypeLimits` objects of numbers, and `publicSignals` an array of strings. The edge function checks none of this, and the model does not capture what other shapes do:
  - a `null` body throws at `requestData.operation` and gets a 500;
  - a body without `operation` gets "Unknown operation: undefined";
  - an `accounts` value that is truthy but not an array passes the input guard, and then `.map` throws;
  - a missing, `null` or non-numeric balance is never greater than its limit, so that account passes every ceiling;
  - a non-numeric string as a limit is never exceeded in the same way.
  
  `FallbackProveVerdict`, `ProveRequestMatchesBatchRule` and `ServeRoundTrip` therefore hold for numeric balances and limits only.

=== FILE: AccountManagement.dfy ===
/**
 * The administrator's account registry: sequential zero-padded account ids,
 * the generated set of 100 mock accounts, the add-account handler with its
 * input validation, the compliance counters and the ten-row table.
 *
 * Random draws (`Math.random`) and the `Number(...)` coercion of the balance
 * field are parameters.
 */
module AccountManagement {
  import opened Common
  import opened AccountTypes

  // ---------------------------------------------------------------------------
  // Decimal account ids

  predicate IsDigit(c: char) {
    '0' <= c <= '9'
  }

  predicate AllDigits(s: string) {
    forall i :: 0 <= i < |s| ==> IsDigit(s[i])
  }

  function DigitChar(d: nat): (c: char)
    requires d < 10
    ensures IsDigit(c) && c as int - '0' as int == d
  {
    ('0' as int + d) as char
  }

  /** `n.toString()` for a natural number: decimal, without leading zeros. */
  function Digits(n: nat): (s: string)
    ensures 1 <= |s| && AllDigits(s)
    ensures n > 0 ==> s[0] != '0'
  {
    if n < 10 then [DigitChar(n)] else Digits(n / 10) + [DigitChar(n % 10)]
  }

  /** The number a string of decimal digits denotes (leading zeros allowed). */
  function DigitValue(s: string): nat
    requires AllDigits(s)
  {
    if s == [] then 0 else DigitValue(s[..|s| - 1]) * 10 + (s[|s| - 1] as int - '0' as int)
  }

  /** Reading back the decimal form of `n` gives `n`. */
  lemma {:induction false} DigitsRoundTrip(n: nat)
    ensures DigitValue(Digits(n)) == n
  {
    if n >= 10 {
      DigitsRoundTrip(n / 10);
      var s := Digits(n / 10) + [DigitChar(n % 10)];
      assert s[..|s| - 1] == Digits(n / 10);
    }
  }

  lemma {:induction false} ZerosValue(k: nat)
    ensures AllDigits(Repeat('0', k)) && DigitValue(Repeat('0', k)) == 0
  {
    if k > 0 {
      ZerosValue(k - 1);
      assert Repeat('0', k)[..k - 1] == Repeat('0', k - 1);
    }
  }

  /** Leading zeros do not change the value of a digit string. */
  lemma {:induction false} LeadingZerosValue(k: nat, s: string)
    requires AllDigits(s)
    ensures AllDigits(Repeat('0', k) + s)
    ensures DigitValue(Repeat('0', k) + s) == DigitValue(s)
  {
    if s == [] {
      ZerosValue(k);
      assert Repeat('0', k) + s == Repeat('0', k);
    } else {
      var init := s[..|s| - 1];
      LeadingZerosValue(k, init);
      var z := Repeat('0', k) + s;
      assert z[..|z| - 1] == Repeat('0', k) + init;
    }
  }

  /** `s.padStart(width, fill)`: `fill` prepended until the length is `width`. */
  function PadStart(s: string, width: nat, fill: char): (r: string)
    ensures |r| == if |s| >= width then |s| else width
    ensures r[|r| - |s|..] == s
    ensures forall i :: 0 <= i < |r| - |s| ==> r[i] == fill
  {
    if |s| >= width then s else Repeat(fill, width - |s|) + s
  }

  const IdPrefix := "ACC-"

  /** The id of the account at 1-based position `n`: `ACC-${n.toString().padStart(3, '0')}`. */
  function AccountId(n: nat): string {
    IdPrefix + PadStart(Digits(n), 3, '0')
  }

  /** The position an account id names, if it has the `ACC-<digits>` form. */
  function IdNumber(id: string): Option<nat> {
    if |id| >= 4 && id[..4] == IdPrefix && AllDigits(id[4..]) then Some(DigitValue(id[4..])) else None
  }

  /** Every id reads back as its position, and has at least three digits. */
  lemma IdRoundTrip(n: nat)
    ensures IdNumber(AccountId(n)) == Some(n)
    ensures |AccountId(n)| == 4 + (if |Digits(n)| >= 3 then |Digits(n)| else 3)
  {
    var d := Digits(n);
    DigitsRoundTrip(n);
    if |d| < 3 {
      LeadingZerosValue(3 - |d|, d);
    }
    assert AccountId(n)[4..] == PadStart(d, 3, '0');
    assert AccountId(n)[..4] == IdPrefix;
  }

  /** Distinct positions have distinct ids. */
  lemma AccountIdInjective(m: nat, n: nat)
    ensures AccountId(m) == AccountId(n) <==> m == n
  {
    if AccountId(m) == AccountId(n) {
      IdRoundTrip(m);
      IdRoundTrip(n);
    }
  }

  /** The first mock account is `ACC-001`: one digit padded with two zeros. */
  lemma FirstMockId()
    ensures AccountId(1) == "ACC-001"
  {
    assert Digits(1) == "1";
    assert Repeat('0', 2) == "00";
  }

  /** The hundredth mock account is `ACC-100`: three digits, no padding. */
  lemma LastMockId()
    ensures AccountId(100) == "ACC-100"
  {
    assert Digits(10) == "10";
    assert Digits(100) == "100";
  }

  /** The first account added after the mock list is `ACC-101`. */
  lemma NextAddedId()
    ensures AccountId(101) == "ACC-101"
  {
    assert Digits(10) == "10";
    assert Digits(101) == "101";
  }

  // ---------------------------------------------------------------------------
  // Accounts

  datatype ManagedAccount = ManagedAccount(
    id: string,
    balance: int,
    hashedBalance: string,
    salt: string,
    accountType: AccountType,
    isCompliant: bool)

  /** The account at position `i` carries the id of position `i + 1`. */
  predicate IdsFollowPositions(s: seq<ManagedAccount>) {
    forall i :: 0 <= i < |s| ==> s[i].id == AccountId(i + 1)
  }

  /** Each stored flag is `balance <= limit` for the account's category. */
  predicate FlagsAgree(s: seq<ManagedAccount>) {
    forall i :: 0 <= i < |s| ==> s[i].isCompliant == Complies(s[i].balance, s[i].accountType)
  }

  /** Appending the account for the next position keeps both invariants. */
  lemma AppendKeepsInvariants(s: seq<ManagedAccount>, a: ManagedAccount)
    requires IdsFollowPositions(s) && FlagsAgree(s)
    requires a.id == AccountId(|s| + 1) && a.isCompliant == Complies(a.balance, a.accountType)
    ensures IdsFollowPositions(s + [a]) && FlagsAgree(s + [a])
  {
    var t := s + [a];
    forall i | 0 <= i < |t|
      ensures t[i].id == AccountId(i + 1) && t[i].isCompliant == Complies(t[i].balance, t[i].accountType)
    {
      if i < |s| {
        assert t[i] == s[i];
      }
    }
  }

  /** Ids that follow positions are pairwise distinct. */
  lemma IdsDistinct(s: seq<ManagedAccount>)
    requires IdsFollowPositions(s)
    ensures forall i, j :: 0 <= i < j < |s| ==> s[i].id != s[j].id
  {
    forall i, j | 0 <= i < j < |s|
      ensures s[i].id != s[j].id
    {
      AccountIdInjective(i + 1, j + 1);
    }
  }

  // ---------------------------------------------------------------------------
  // Mock accounts

  /** A value of `Math.random()`. */
  type Roll = x: real | 0.0 <= x < 1.0

  /** The random draws one mock account consumes. */
  datatype MockDraw = MockDraw(typeRoll: Roll, balanceRoll: Roll, salt: string, hashedBalance: string)

  /** `accountTypes[Math.floor(Math.random() * accountTypes.length)]`. */
  function RolledType(roll: Roll): AccountType {
    var k := (roll * 3.0).Floor;
    assert 0 <= k < 3;
    AllTypes[k]
  }

  /**
   * `Math.floor(Math.random() * (limit * 1.2)) + 1000`: at least 1000 and less
   * than 1000 plus 1.2 times the ceiling.
   */
  function RolledBalance(roll: Roll, t: AccountType): (b: int)
    ensures 1000 <= b
    ensures (b - 1000) as real < Limit(t) as real * 1.2
  {
    var range := Limit(t) as real * 1.2;
    assert 0.0 <= roll * range < range;
    (roll * range).Floor + 1000
  }

  /** The mock account at 1-based position `n`. */
  function MockAccount(n: nat, d: MockDraw): ManagedAccount {
    var t := RolledType(d.typeRoll);
    var b := RolledBalance(d.balanceRoll, t);
    ManagedAccount(AccountId(n), b, d.hashedBalance, d.salt, t, Complies(b, t))
  }

  /** The lowest draw is within every ceiling, a high one exceeds it. */
  lemma MockBalancesStraddleLimit(t: AccountType)
    ensures Complies(RolledBalance(0.0, t), t)
    ensures !Complies(RolledBalance(0.99, t), t)
  {
    var range := Limit(t) as real * 1.2;
    assert (0.99 * range).Floor as real > 0.99 * range - 1.0;
  }

  /** `generateMockAccounts`' loop: accounts 1 to 100, pushed in order. */
  method MockAccounts(draw: nat -> MockDraw) returns (mock: seq<ManagedAccount>)
    ensures |mock| == 100
    ensures forall i :: 0 <= i < |mock| ==> mock[i] == MockAccount(i + 1, draw(i + 1))
    ensures IdsFollowPositions(mock) && FlagsAgree(mock)
    ensures forall i :: 0 <= i < |mock| ==> 1000 <= mock[i].balance
  {
    mock := [];
    var i := 1;
    while i <= 100
      invariant 1 <= i <= 101
      invariant |mock| == i - 1
      invariant forall j :: 0 <= j < |mock| ==> mock[j] == MockAccount(j + 1, draw(j + 1))
    {
      mock := mock + [MockAccount(i, draw(i))];
      i := i + 1;
    }
  }

  // ---------------------------------------------------------------------------
  // Statistics

  /** `accounts.filter(acc => acc.isCompliant).length`. */
  function CountCompliant(s: seq<ManagedAccount>): (n: nat)
    ensures n <= |s|
  {
    if s == [] then 0 else CountCompliant(s[..|s| - 1]) + (if s[|s| - 1].isCompliant then 1 else 0)
  }

  /** `accounts.filter(acc => !acc.isCompliant).length`. */
  function CountNonCompliant(s: seq<ManagedAccount>): (n: nat)
    ensures n <= |s|
  {
    if s == [] then 0 else CountNonCompliant(s[..|s| - 1]) + (if s[|s| - 1].isCompliant then 0 else 1)
  }

  /** Every account is counted exactly once, as compliant or as non-compliant. */
  lemma {:induction false} CompliantPartition(s: seq<ManagedAccount>)
    ensures CountCompliant(s) + CountNonCompliant(s) == |s|
  {
    if s != [] {
      CompliantPartition(s[..|s| - 1]);
    }
  }

  /** No account is counted as non-compliant iff every account flag is set. */
  lemma {:induction false} NoIssuesIffAllFlagged(s: seq<ManagedAccount>)
    ensures CountNonCompliant(s) == 0 <==> forall i :: 0 <= i < |s| ==> s[i].isCompliant
  {
    if s != [] {
      var init := s[..|s| - 1];
      NoIssuesIffAllFlagged(init);
      if forall i :: 0 <= i < |s| ==> s[i].isCompliant {
        forall i | 0 <= i < |init| ensures init[i].isCompliant {
          assert init[i] == s[i];
        }
      } else if CountNonCompliant(s) == 0 {
        forall i | 0 <= i < |s| ensures s[i].isCompliant {
          if i < |s| - 1 {
            assert s[i] == init[i];
          }
        }
      }
    }
  }

  datatype ComplianceSummary = ComplianceSummary(total: nat, compliant: nat, nonCompliant: nat)

  /** `complianceStats`: the total and its split into compliant and non-compliant. */
  function ComplianceStats(s: seq<ManagedAccount>): (r: ComplianceSummary)
    ensures r.total == |s|
    ensures r.compliant + r.nonCompliant == r.total
    ensures FlagsAgree(s) ==>
      (r.nonCompliant == 0 <==> forall i :: 0 <= i < |s| ==> Complies(s[i].balance, s[i].accountType))
  {
    CompliantPartition(s);
    NoIssuesIffAllFlagged(s);
    ComplianceSummary(|s|, CountCompliant(s), CountNonCompliant(s))
  }

  /** `accounts.filter(acc => acc.accountType === t).length`. */
  function CountOfType(s: seq<ManagedAccount>, t: AccountType): (n: nat)
    ensures n <= |s|
  {
    if s == [] then 0 else CountOfType(s[..|s| - 1], t) + (if s[|s| - 1].accountType == t then 1 else 0)
  }

  /** `accounts.filter(acc => acc.accountType === t && acc.isCompliant).length`. */
  function CompliantOfType(s: seq<ManagedAccount>, t: AccountType): (n: nat)
    ensures n <= CountOfType(s, t)
  {
    if s == [] then 0
    else CompliantOfType(s[..|s| - 1], t) + (if s[|s| - 1].accountType == t && s[|s| - 1].isCompliant then 1 else 0)
  }

  /**
   * The three categories split the list: their counts add up to the total,
   * and their compliant counts add up to the compliant total.
   */
  lemma {:induction false} TypeCountsPartition(s: seq<ManagedAccount>)
    ensures CountOfType(s, Individual) + CountOfType(s, Association) + CountOfType(s, LargeCondominium) == |s|
    ensures CompliantOfType(s, Individual) + CompliantOfType(s, Association) + CompliantOfType(s, LargeCondominium)
            == CountCompliant(s)
  {
    if s != [] {
      TypeCountsPartition(s[..|s| - 1]);
    }
  }

  datatype TypeStats = TypeStats(info: AccountTypeInfo, count: nat, compliant: nat)

  /** `statsByType`: one entry per category, in table order. */
  function StatsByType(s: seq<ManagedAccount>): (r: seq<TypeStats>)
    ensures |r| == |AllTypes|
    ensures forall k :: 0 <= k < |r| ==> r[k].info == GetAccountTypeInfo(AllTypes[k]) && r[k].compliant <= r[k].count
    ensures r[0].count + r[1].count + r[2].count == |s|
    ensures r[0].compliant + r[1].compliant + r[2].compliant == CountCompliant(s)
  {
    TypeCountsPartition(s);
    seq(|AllTypes|, k requires 0 <= k < |AllTypes| =>
      TypeStats(GetAccountTypeInfo(AllTypes[k]), CountOfType(s, AllTypes[k]), CompliantOfType(s, AllTypes[k])))
  }

  // ---------------------------------------------------------------------------
  // Registry table

  const TableRowLimit := 10

  /** `accounts.slice(0, 10)`: the rows the registry table shows. */
  function TableRows(s: seq<ManagedAccount>): (r: seq<ManagedAccount>)
    ensures |r| <= TableRowLimit && r <= s
    ensures |s| <= TableRowLimit ==> r == s
  {
    if |s| <= TableRowLimit then s else s[..TableRowLimit]
  }

  /** The "Showing 10 of N accounts" note. */
  predicate ShowsOverflowNote(s: seq<ManagedAccount>) {
    |s| > TableRowLimit
  }

  /** The note is shown exactly when the table leaves accounts out. */
  lemma NoteIffRowsOmitted(s: seq<ManagedAccount>)
    ensures ShowsOverflowNote(s) <==> |TableRows(s)| < |s|
    ensures ShowsOverflowNote(s) ==> |TableRows(s)| == TableRowLimit
  {
  }

  // ---------------------------------------------------------------------------
  // The component state

  /** The toast the component raises. */
  datatype Notice = InvalidBalance | AccountAdded(typeName: string, id: string)

  class AccountManager {
    var accounts: seq<ManagedAccount>
    var newBalance: string
    var selectedAccountType: AccountType
    var notice: Option<Notice>

    /** Ids follow positions and flags follow the ceilings. */
    ghost predicate Valid()
      reads this
    {
      IdsFollowPositions(accounts) && FlagsAgree(accounts)
    }

    constructor ()
      ensures Valid()
      ensures accounts == [] && newBalance == "" && selectedAccountType == Individual && notice == None
    {
      accounts := [];
      newBalance := "";
      selectedAccountType := Individual;
      notice := None;
    }

    /** `generateMockAccounts`: the list becomes the 100 mock accounts. */
    method GenerateMockAccounts(draw: nat -> MockDraw)
      modifies this
      ensures Valid() && |accounts| == 100
      ensures forall i :: 0 <= i < |accounts| ==> accounts[i] == MockAccount(i + 1, draw(i + 1))
      ensures newBalance == old(newBalance) && selectedAccountType == old(selectedAccountType)
      ensures notice == old(notice)
    {
      var mock := MockAccounts(draw);
      accounts := mock;
    }

    /** The balance field's `onChange`. */
    method SetNewBalance(text: string)
      requires Valid()
      modifies this
      ensures Valid()
      ensures newBalance == text
      ensures accounts == old(accounts) && selectedAccountType == old(selectedAccountType) && notice == old(notice)
    {
      newBalance := text;
    }

    /** The category selector's `onValueChange`. */
    method SelectAccountType(t: AccountType)
      requires Valid()
      modifies this
      ensures Valid()
      ensures selectedAccountType == t
      ensures accounts == old(accounts) && newBalance == old(newBalance) && notice == old(notice)
    {
      selectedAccountType := t;
    }

    /**
     * `addAccount`. `toNumber` is `Number(...)`, giving None for `NaN`; `salt`
     * and `hashedBalance` are the random strings. An empty or non-numeric
     * field is rejected with the list untouched; otherwise one account is
     * appended with the next id and the flag `balance <= limit`.
     */
    method AddAccount(toNumber: string -> Option<int>, salt: string, hashedBalance: string)
      requires Valid()
      modifies this
      ensures Valid()
      ensures selectedAccountType == old(selectedAccountType)
      ensures old(newBalance) == "" || toNumber(old(newBalance)).None? ==>
        accounts == old(accounts) && newBalance == old(newBalance) && notice == Some(InvalidBalance)
      ensures old(newBalance) != "" && toNumber(old(newBalance)).Some? ==>
        var balance := toNumber(old(newBalance)).value;
        var id := AccountId(|old(accounts)| + 1);
        && accounts == old(accounts) + [ManagedAccount(id, balance, hashedBalance, salt, selectedAccountType,
                                                       Complies(balance, selectedAccountType))]
        && newBalance == ""
        && notice == Some(AccountAdded(GetAccountTypeInfo(selectedAccountType).name, id))
    {
      var numeric := toNumber(newBalance);
      if newBalance == "" || numeric.None? {
        notice := Some(InvalidBalance);
        return;
      }
      var balance := numeric.value;
      var id := AccountId(|accounts| + 1);
      var account := ManagedAccount(id, balance, hashedBalance, salt, selectedAccountType,
                                    balance <= GetAccountTypeInfo(selectedAccountType).limit);
      AppendKeepsInvariants(accounts, account);
      accounts := accounts + [account];
      newBalance := "";
      notice := Some(AccountAdded(GetAccountTypeInfo(selectedAccountType).name, id));
    }
  }

  /** Any number of adds after the mock generation keeps the ids pairwise distinct. */
  lemma RegistryIdsDistinct(m: AccountManager)
    requires m.Valid()
    ensures forall i, j :: 0 <= i < j < |m.accounts| ==> m.accounts[i].id != m.accounts[j].id
  {
    IdsDistinct(m.accounts);
  }
}

=== FILE: AccountTypes.dfy ===
/**
 * The three Livret A account categories of Article R221-2 of the French
 * Monetary and Financial Code, each with its fixed ceiling in euros, and the
 * per-account compliance rule `balance <= limit`.
 */
module AccountTypes {
  import opened Common

  datatype AccountType = Individual | Association | LargeCondominium

  /** An entry of the table; `name` holds the entry's `label`. */
  datatype AccountTypeInfo = AccountTypeInfo(
    id: AccountType,
    name: string,
    limit: int,
    description: string,
    currency: string)

  /** The categories in the order the table lists them (`Object.values(ACCOUNT_TYPES)`). */
  const AllTypes: seq<AccountType> := [Individual, Association, LargeCondominium]

  /** The entry of the `ACCOUNT_TYPES` table for a category. */
  function GetAccountTypeInfo(t: AccountType): (info: AccountTypeInfo)
    ensures info.id == t
    ensures info.currency == "EUR"
    ensures info.limit > 0
  {
    match t
    case Individual =>
      AccountTypeInfo(Individual, "Individual", 22950,
                      "Individual Livret A account", "EUR")
    case Association =>
      AccountTypeInfo(Association, "Association", 76500,
                      "Association & Condominium associations", "EUR")
    case LargeCondominium =>
      AccountTypeInfo(LargeCondominium, "Large Condominium", 100000,
                      "Condominium associations with >100 units", "EUR")
  }

  function Limit(t: AccountType): int {
    GetAccountTypeInfo(t).limit
  }

  /** The per-account rule: a balance equal to the ceiling still complies. */
  predicate Complies(balance: int, t: AccountType) {
    balance <= Limit(t)
  }

  /** The identifier a category has on the wire (`'individual'`, ...). */
  function TypeId(t: AccountType): string {
    match t
    case Individual => "individual"
    case Association => "association"
    case LargeCondominium => "large_condominium"
  }

  /** The category a wire identifier names, if any. */
  function ParseTypeId(s: string): (r: Option<AccountType>)
    ensures r.Some? ==> TypeId(r.value) == s
  {
    if s == "individual" then Some(Individual)
    else if s == "association" then Some(Association)
    else if s == "large_condominium" then Some(LargeCondominium)
    else None
  }

  /** Every category is listed exactly once and the listing is in table order. */
  lemma TableListsEveryTypeOnce(t: AccountType)
    ensures |AllTypes| == 3
    ensures t in AllTypes
    ensures AllTypes[0] != AllTypes[1] && AllTypes[1] != AllTypes[2] && AllTypes[0] != AllTypes[2]
  {
  }

  /** The ceilings are 22950, 76500 and 100000 euros, strictly increasing in table order. */
  lemma LimitsAscend()
    ensures Limit(Individual) == 22950 && Limit(Association) == 76500 && Limit(LargeCondominium) == 100000
    ensures forall i, j :: 0 <= i < j < |AllTypes| ==> Limit(AllTypes[i]) < Limit(AllTypes[j])
  {
  }

  /** Wire identifiers name categories one to one. */
  lemma TypeIdRoundTrip(t: AccountType)
    ensures ParseTypeId(TypeId(t)) == Some(t)
    ensures forall u :: TypeId(u) == TypeId(t) ==> u == t
  {
  }
}

=== FILE: AppAccounts.dfy ===
/**
 * The application's account list and its three handlers: append, replace at
 * an index, and delete at an index. Each handler replaces the list by a new
 * one computed from the previous list.
 */
module AppAccounts {
  import opened Common
  import AccountTypes

  /** An account as the application passes it around; the category is optional. */
  datatype Account = Account(balance: int, salt: string, accountType: Option<AccountTypes.AccountType>)

  /** `prev.map((acc, i) => i === index ? updated : acc)`. */
  function Replaced(s: seq<Account>, index: int, updated: Account): (r: seq<Account>)
    ensures |r| == |s|
    ensures forall j :: 0 <= j < |s| ==> r[j] == (if j == index then updated else s[j])
  {
    if s == [] then []
    else Replaced(s[..|s| - 1], index, updated) + [if |s| - 1 == index then updated else s[|s| - 1]]
  }

  /** `prev.filter((_, i) => i !== index)`. */
  function Without(s: seq<Account>, index: int): seq<Account> {
    if s == [] then []
    else Without(s[..|s| - 1], index) + (if |s| - 1 == index then [] else [s[|s| - 1]])
  }

  /** Replacing at an index in range updates that element only; out of range nothing changes. */
  lemma ReplacedUpdatesOneIndex(s: seq<Account>, index: int, updated: Account)
    ensures 0 <= index < |s| ==> Replaced(s, index, updated) == s[index := updated]
    ensures !(0 <= index < |s|) ==> Replaced(s, index, updated) == s
  {
  }

  /**
   * Deleting at an index in range removes exactly that element and keeps the
   * order of the others; out of range nothing changes.
   */
  lemma {:induction false} WithoutRemovesOneIndex(s: seq<Account>, index: int)
    ensures 0 <= index < |s| ==> Without(s, index) == s[..index] + s[index + 1..]
    ensures !(0 <= index < |s|) ==> Without(s, index) == s
  {
    if s != [] {
      var init := s[..|s| - 1];
      WithoutRemovesOneIndex(init, index);
      if 0 <= index < |s| - 1 {
        assert s[..index] + s[index + 1..] == init[..index] + init[index + 1..] + [s[|s| - 1]];
      } else if index == |s| - 1 {
        assert s[..index] + s[index + 1..] == init;
      } else {
        assert init + [s[|s| - 1]] == s;
      }
    }
  }

  class AccountList {
    var accounts: seq<Account>

    constructor ()
      ensures accounts == []
    {
      accounts := [];
    }

    /** `addAccount`: appends at the end. */
    method AddAccount(account: Account)
      modifies this
      ensures accounts == old(accounts) + [account]
      ensures |accounts| == |old(accounts)| + 1 && accounts[..|old(accounts)|] == old(accounts)
    {
      accounts := accounts + [account];
    }

    /** `updateAccount`: same length, index `index` replaced, every other index unchanged. */
    method UpdateAccount(index: int, updated: Account)
      modifies this
      ensures accounts == Replaced(old(accounts), index, updated)
      ensures 0 <= index < |old(accounts)| ==> accounts == old(accounts)[index := updated]
      ensures !(0 <= index < |old(accounts)|) ==> accounts == old(accounts)
    {
      ReplacedUpdatesOneIndex(accounts, index, updated);
      accounts := Replaced(accounts, index, updated);
    }

    /** `deleteAccount`: element `index` removed, the others kept in order. */
    method DeleteAccount(index: int)
      modifies this
      ensures accounts == Without(old(accounts), index)
      ensures 0 <= index < |old(accounts)| ==>
        accounts == old(accounts)[..index] + old(accounts)[index + 1..]
      ensures !(0 <= index < |old(accounts)|) ==> accounts == old(accounts)
    {
      WithoutRemovesOneIndex(accounts, index);
      accounts := Without(accounts, index);
    }
  }
}

=== FILE: Common.dfy ===
/**
 * Values shared by every component: an optional value, the values a JSON text
 * denotes, and texts as the components see them.
 *
 * A text that `JSON.parse` (or `serde_json::from_str`) accepts is represented by
 * the value it denotes (`Encoded`); a text that it rejects keeps its characters
 * (`Chars`). That a `Chars` text does not parse is a convention of the model,
 * not something the type enforces, and both parsers are taken to accept the
 * same texts. `JSON.stringify(v)` is `Encoded(v)`, so parsing what was serialized
 * gives the value back by construction.
 */
module Common {

  datatype Option<+T> = None | Some(value: T) {
    function GetOr(default: T): T {
      match this
      case Some(v) => v
      case None => default
    }
  }

  /** A JSON value. Numbers are integers in this model. */
  datatype Json =
    | JNull
    | JBool(b: bool)
    | JNum(n: int)
    | JStr(s: string)
    | JArr(items: seq<Json>)
    | JObj(fields: map<string, Json>)

  /** A string that may or may not hold a JSON text. */
  datatype Text = Encoded(value: Json) | Chars(chars: string)

  /** What parsing the text yields; `None` is a parse error. */
  function Parse(t: Text): Option<Json> {
    match t
    case Encoded(v) => Some(v)
    case Chars(_) => None
  }

  /** JavaScript truthiness of a string: only the empty string is falsy. */
  predicate TextTruthy(t: Text) {
    t.Encoded? || t.chars != ""
  }

  /**
   * The characters `String.prototype.trim` removes: ECMAScript's WhiteSpace
   * (tab, vertical tab, form feed, the byte order mark and every space
   * separator) and LineTerminator (line feed, carriage return, and the line
   * and paragraph separators).
   */
  predicate IsSpace(c: char) {
    || c == '\t' || c == '\U{0B}' || c == '\U{0C}' || c == ' ' || c == '\U{A0}' || c == '\U{FEFF}'
    || c == '\U{1680}' || ('\U{2000}' <= c <= '\U{200A}') || c == '\U{202F}' || c == '\U{205F}' || c == '\U{3000}'
    || c == '\n' || c == '\r' || c == '\U{2028}' || c == '\U{2029}'
  }

  /** `!text.trim()`: the text is empty or whitespace only. A JSON text never is. */
  predicate IsBlank(t: Text) {
    t.Chars? && forall i :: 0 <= i < |t.chars| ==> IsSpace(t.chars[i])
  }

  /** JavaScript truthiness of a property value; `None` is `undefined`. */
  predicate Truthy(v: Option<Json>) {
    match v
    case None => false
    case Some(JNull) => false
    case Some(JBool(b)) => b
    case Some(JNum(n)) => n != 0
    case Some(JStr(s)) => s != ""
    case Some(JArr(_)) => true
    case Some(JObj(_)) => true
  }

  /** The outcome of a property access: a value (maybe `undefined`) or a thrown TypeError. */
  datatype Access = Value(v: Option<Json>) | Throws

  /**
   * `v.key` for a named (non-index) key: objects look the key up, `null` throws,
   * and every other value has no such own property.
   */
  function Member(v: Json, key: string): (r: Access)
    ensures r.Throws? <==> v.JNull?
    ensures r.Value? && r.v.Some? ==> v.JObj? && key in v.fields && r.v.value == v.fields[key]
  {
    match v
    case JNull => Throws
    case JObj(m) => Value(if key in m then Some(m[key]) else None)
    case _ => Value(None)
  }

  /** `v?.[0]`: optional chaining on `null`/`undefined`, then index 0. */
  function FirstElement(v: Option<Json>): (r: Option<Json>)
    ensures r.Some? ==> v.Some?
    ensures v.Some? && v.value.JArr? ==> (r.Some? <==> |v.value.items| > 0)
  {
    match v
    case None => None
    case Some(JArr(items)) => if |items| > 0 then Some(items[0]) else None
    case Some(JStr(s)) => if |s| > 0 then Some(JStr([s[0]])) else None
    case Some(JObj(m)) => if "0" in m then Some(m["0"]) else None
    case Some(_) => None
  }

  /** A sequence of strings as a JSON array of strings. */
  function StringArray(s: seq<string>): (r: Json)
    ensures r.JArr? && |r.items| == |s|
    ensures forall i :: 0 <= i < |s| ==> r.items[i] == JStr(s[i])
  {
    if s == [] then JArr([])
    else JArr(StringArray(s[..|s| - 1]).items + [JStr(s[|s| - 1])])
  }

  /** `c.repeat(n)` for a one-character string `c`. */
  function Repeat(c: char, n: nat): (s: string)
    ensures |s| == n
    ensures forall i :: 0 <= i < n ==> s[i] == c
  {
    if n == 0 then [] else Repeat(c, n - 1) + [c]
  }
}

=== FILE: ComplianceVerifier.dfy ===
/**
 * The proof verification page: the proof text it holds, the record it builds
 * from a parsed proof, and its acceptance rule ("valid" when both `proof` and
 * `publicSignals` are truthy, "compliant" when the first public signal is the
 * string "1"). No cryptographic check takes place.
 *
 * The clock (`new Date().toISOString()`) is the parameter `now`; the random
 * `verificationTime` and the two-second delay are not modelled.
 */
module ProofVerification {
  import opened Common
  import ZkpEdge

  /** `VerificationResult` without its random `verificationTime`. */
  datatype VerificationResult = VerificationResult(
    isValid: bool,
    protocol: Json,
    accountsVerified: Json,
    compliance: bool,
    timestamp: Json)

  /** The toasts the page raises. */
  datatype Notice =
    | NoProofData
    | VerificationSuccessful
    | VerificationFailed
    | InvalidProofFormat
    | FileUploaded(fileName: string)
    | FileDropped(fileName: string)
    | SampleProofLoaded

  /** A file chosen or dropped by the user. */
  datatype ProofFile = ProofFile(name: string, mimeType: string, contents: Text)

  /** `value || fallback`. */
  function OrElse(v: Option<Json>, fallback: Json): Json {
    if Truthy(v) then v.value else fallback
  }

  /**
   * The record built from a parsed proof; `None` when reading its fields
   * throws, which happens exactly for `null`.
   */
  function Evaluate(proof: Json, now: string): (r: Option<VerificationResult>)
    ensures r.None? <==> proof.JNull?
    ensures r.Some? && r.value.compliance ==> proof.JObj? && "publicSignals" in proof.fields
    ensures r.Some? && r.value.isValid ==> proof.JObj? && "proof" in proof.fields && "publicSignals" in proof.fields
  {
    if proof.JNull? then None
    else
      var signals := Member(proof, "publicSignals").v;
      Some(VerificationResult(
        Truthy(Member(proof, "proof").v) && Truthy(signals),
        OrElse(Member(proof, "protocol").v, JStr("unknown")),
        OrElse(Member(proof, "accountsVerified").v, JNum(0)),
        FirstElement(signals) == Some(JStr("1")),
        OrElse(Member(proof, "timestamp").v, JStr(now))))
  }

  /** Parse, then build the record; `None` for every input that ends in the `catch`. */
  function Check(proofData: Text, now: string): (r: Option<VerificationResult>)
    ensures r.Some? ==> proofData.Encoded? && !proofData.value.JNull?
  {
    match Parse(proofData)
    case None => None
    case Some(v) => Evaluate(v, now)
  }

  /** The toast after a non-blank verification. */
  function Verdict(r: Option<VerificationResult>): (n: Notice)
    ensures n == InvalidProofFormat <==> r.None?
    ensures n == VerificationSuccessful <==> r.Some? && r.value.isValid && r.value.compliance
    ensures n == VerificationFailed <==> r.Some? && !(r.value.isValid && r.value.compliance)
  {
    match r
    case None => InvalidProofFormat
    case Some(v) => if v.isValid && v.compliance then VerificationSuccessful else VerificationFailed
  }

  /** The sample `loadSampleProof` serializes; `hex` stands for the 128 random hex digits. */
  function SampleProof(hex: string, now: string): Text {
    Encoded(JObj(map[
      "proof" := JStr("0x" + hex),
      "publicSignals" := JArr([JStr("1")]),
      "protocol" := JStr("spartan"),
      "timestamp" := JStr(now),
      "accountsVerified" := JNum(100),
      "maxBalance" := JNum(100000)]))
  }

  class ComplianceVerifier {
    var proofData: Text
    var isVerifying: bool
    var verificationResult: Option<VerificationResult>
    var notice: Option<Notice>

    constructor ()
      ensures proofData == Chars("") && !isVerifying && verificationResult == None && notice == None
    {
      proofData := Chars("");
      isVerifying := false;
      verificationResult := None;
      notice := None;
    }

    /**
     * `verifyProof`. Blank input only raises a toast. Otherwise the previous
     * result is cleared, the new record (if any) is stored, and the page is no
     * longer verifying.
     */
    method VerifyProof(now: string)
      modifies this
      ensures proofData == old(proofData)
      ensures IsBlank(proofData) ==>
        isVerifying == old(isVerifying) && verificationResult == old(verificationResult) && notice == Some(NoProofData)
      ensures !IsBlank(proofData) ==>
        !isVerifying && verificationResult == Check(proofData, now) && notice == Some(Verdict(verificationResult))
    {
      if IsBlank(proofData) {
        notice := Some(NoProofData);
        return;
      }
      isVerifying := true;
      verificationResult := None;
      var parsed := Parse(proofData);
      if parsed.Some? {
        var result := Evaluate(parsed.value, now);
        if result.Some? {
          verificationResult := result;
          if result.value.isValid && result.value.compliance {
            notice := Some(VerificationSuccessful);
          } else {
            notice := Some(VerificationFailed);
          }
        } else {
          notice := Some(InvalidProofFormat);
        }
      } else {
        notice := Some(InvalidProofFormat);
      }
      isVerifying := false;
    }

    /** The text area's `onChange`. */
    method SetProofData(text: Text)
      modifies this
      ensures proofData == text
      ensures isVerifying == old(isVerifying) && verificationResult == old(verificationResult) && notice == old(notice)
    {
      proofData := text;
    }

    /** `handleFileUpload`: a chosen file replaces the text; no file changes nothing. */
    method UploadFile(file: Option<ProofFile>)
      modifies this
      ensures file.Some? ==> proofData == file.value.contents && notice == Some(FileUploaded(file.value.name))
      ensures file.None? ==> proofData == old(proofData) && notice == old(notice)
      ensures isVerifying == old(isVerifying) && verificationResult == old(verificationResult)
    {
      if file.Some? {
        proofData := file.value.contents;
        notice := Some(FileUploaded(file.value.name));
      }
    }

    /** `handleDrop`: only a dropped `application/json` file replaces the text. */
    method DropFile(file: Option<ProofFile>)
      modifies this
      ensures file.Some? && file.value.mimeType == "application/json" ==>
        proofData == file.value.contents && notice == Some(FileDropped(file.value.name))
      ensures !(file.Some? && file.value.mimeType == "application/json") ==>
        proofData == old(proofData) && notice == old(notice)
      ensures isVerifying == old(isVerifying) && verificationResult == old(verificationResult)
    {
      if file.Some? && file.value.mimeType == "application/json" {
        proofData := file.value.contents;
        notice := Some(FileDropped(file.value.name));
      }
    }

    /** `loadSampleProof`. */
    method LoadSampleProof(hex: string, now: string)
      modifies this
      ensures proofData == SampleProof(hex, now) && notice == Some(SampleProofLoaded)
      ensures isVerifying == old(isVerifying) && verificationResult == old(verificationResult)
    {
      proofData := SampleProof(hex, now);
      notice := Some(SampleProofLoaded);
    }
  }

  // ---------------------------------------------------------------------------
  // Properties of the acceptance rule

  /**
   * For a record whose `publicSignals` is an array: compliance iff the array
   * is non-empty and starts with the string "1"; validity iff `proof` is truthy.
   */
  lemma SignalsDecide(fields: map<string, Json>, items: seq<Json>, now: string)
    requires "publicSignals" in fields && fields["publicSignals"] == JArr(items)
    ensures Evaluate(JObj(fields), now).Some?
    ensures Evaluate(JObj(fields), now).value.compliance <==> |items| > 0 && items[0] == JStr("1")
    ensures Evaluate(JObj(fields), now).value.isValid <==> "proof" in fields && Truthy(Some(fields["proof"]))
  {
  }

  /** An empty-string proof is invalid and the verification fails. */
  lemma EmptyProofInvalid(fields: map<string, Json>, now: string)
    requires "proof" in fields && fields["proof"] == JStr("")
    ensures !Evaluate(JObj(fields), now).value.isValid
    ensures Verdict(Evaluate(JObj(fields), now)) == VerificationFailed
  {
  }

  /** An empty signals array is valid (with a non-empty proof) but not compliant. */
  lemma EmptySignalsValidNotCompliant(fields: map<string, Json>, now: string)
    requires "proof" in fields && fields["proof"] == JStr("0x")
    requires "publicSignals" in fields && fields["publicSignals"] == JArr([])
    ensures Evaluate(JObj(fields), now).value.isValid
    ensures !Evaluate(JObj(fields), now).value.compliance
    ensures Verdict(Evaluate(JObj(fields), now)) == VerificationFailed
  {
  }

  /** Missing (or falsy) `protocol` and `accountsVerified` read as "unknown" and 0. */
  lemma MissingFieldsDefault(fields: map<string, Json>, now: string)
    requires "protocol" !in fields && "accountsVerified" !in fields && "timestamp" !in fields
    ensures Evaluate(JObj(fields), now).value.protocol == JStr("unknown")
    ensures Evaluate(JObj(fields), now).value.accountsVerified == JNum(0)
    ensures Evaluate(JObj(fields), now).value.timestamp == JStr(now)
  {
  }

  /**
   * Text that does not parse, and the JSON `null`, give no record. `Chars`
   * stands for text that `JSON.parse` rejects by the model's convention; the
   * lemma says nothing about a string such as `{}` that would parse.
   */
  lemma UnreadableProofs(chars: string, now: string)
    ensures Check(Chars(chars), now) == None
    ensures Check(Encoded(JNull), now) == None
    ensures Verdict(Check(Chars(chars), now)) == InvalidProofFormat
  {
  }

  /** The sample proof is valid and compliant, and shows its own protocol and count. */
  lemma SampleProofAccepted(hex: string, loaded: string, now: string)
    requires loaded != ""
    ensures Check(SampleProof(hex, loaded), now)
         == Some(VerificationResult(true, JStr("spartan"), JNum(100), true, JStr(loaded)))
    ensures Verdict(Check(SampleProof(hex, loaded), now)) == VerificationSuccessful
    ensures !IsBlank(SampleProof(hex, loaded))
  {
    var v := SampleProof(hex, loaded).value;
    assert |"0x" + hex| >= 2;
    assert Member(v, "publicSignals") == Value(Some(JArr([JStr("1")])));
    assert Member(v, "proof") == Value(Some(JStr("0x" + hex)));
    assert Member(v, "protocol") == Value(Some(JStr("spartan")));
    assert Member(v, "accountsVerified") == Value(Some(JNum(100)));
    assert Member(v, "timestamp") == Value(Some(JStr(loaded)));
    assert FirstElement(Some(JArr([JStr("1")]))) == Some(JStr("1"));
    var r := Evaluate(v, now);
    assert r.Some?;
    assert r.value.isValid;
    assert r.value.protocol == JStr("spartan");
    assert r.value.accountsVerified == JNum(100);
    assert r.value.compliance;
    assert r.value.timestamp == JStr(loaded);
    assert Check(SampleProof(hex, loaded), now) == r;
  }

  /**
   * The proof record the edge function's simulation produces has neither a
   * `proof` nor a `publicSignals` field, so this page never accepts it.
   */
  lemma SimulatedRecordRejected(compliant: bool, now: string)
    ensures var r := Check(Encoded(ZkpEdge.SimulatedProof(compliant)), now);
      r.Some? && !r.value.isValid && !r.value.compliance
  {
  }
}

=== FILE: ProofGenerator.dfy ===
/**
 * The proof generation page: a list of four named steps whose statuses
 * advance one at a time, a progress percentage, and the outcome of asking the
 * edge function for a proof of one test account held at its category's
 * ceiling.
 *
 * The delays between steps are not modelled; the value the proof hook
 * resolves to is a parameter, and the random salt is a parameter.
 */
module ProofGeneration {
  import opened Common
  import opened AccountTypes
  import ZkpEdge
  import ZkProofHook

  datatype StepStatus = Pending | Running | Completed | Error

  datatype Step = Step(id: string, name: string, description: string, status: StepStatus)

  /** The four steps the page starts with, all pending. */
  const InitialSteps: seq<Step> := [
    Step("hash", "Balance Hashing", "Hashing account balances using Poseidon", Pending),
    Step("circuit", "Circuit Compilation", "Compiling constraint circuit for balance verification", Pending),
    Step("witness", "Witness Generation", "Generating witness for constraint satisfaction", Pending),
    Step("spartan", "ZK Proof Generation", "Generating zero-knowledge proof using cryptographic protocol", Pending)
  ]

  /** The page's alerts. */
  datatype Notice = InvalidCredentials | AccessRequired

  /** The demo password the page compares against. */
  const GovernmentPassword := "admin123"

  /** The status of step `index` while step `i` runs. */
  function StageStatus(index: nat, i: nat): StepStatus {
    if index == i then Running else if index < i then Completed else Pending
  }

  /** `steps.map(step => ({ ...step, status }))`. */
  function WithStatus(steps: seq<Step>, status: StepStatus): seq<Step> {
    seq(|steps|, k requires 0 <= k < |steps| => steps[k].(status := status))
  }

  /** The update made when step `i` starts. */
  function Staged(steps: seq<Step>, i: nat): seq<Step> {
    seq(|steps|, k requires 0 <= k < |steps| => steps[k].(status := StageStatus(k, i)))
  }

  /** The update made on failure: the last step becomes an error, the others keep their status. */
  function LastStepFailed(steps: seq<Step>): seq<Step> {
    seq(|steps|, k requires 0 <= k < |steps| =>
      if k == |steps| - 1 then steps[k].(status := Error) else steps[k])
  }

  /** Step `k` of `steps` is step `k` of the initial list with some status. */
  predicate SameSteps(steps: seq<Step>) {
    |steps| == |InitialSteps| &&
    forall k :: 0 <= k < |steps| ==> steps[k].(status := Pending) == InitialSteps[k]
  }

  /** While step `i` runs, it alone is running, the earlier ones are completed and the later ones pending. */
  lemma StagedStatuses(steps: seq<Step>, i: nat)
    requires i < |steps|
    ensures SameSteps(steps) ==> SameSteps(Staged(steps, i))
    ensures forall k :: 0 <= k < |steps| ==>
      (Staged(steps, i)[k].status == Running <==> k == i) &&
      (Staged(steps, i)[k].status == Completed <==> k < i) &&
      (Staged(steps, i)[k].status == Pending <==> k > i)
  {
  }

  /** `((i + 1) / steps.length) * 80`: the progress after step `i`. */
  function ProgressAfter(i: nat, n: nat): (p: real)
    requires i < n
    ensures 0.0 < p <= 80.0
    ensures p == 80.0 <==> i + 1 == n
  {
    var q := (i + 1) as real / n as real;
    assert 0.0 < q <= 1.0;
    assert q == 1.0 <==> i + 1 == n;
    q * 80.0
  }

  /** Progress strictly increases from one step to the next. */
  lemma ProgressIncreases(i: nat, j: nat, n: nat)
    requires i < j < n
    ensures ProgressAfter(i, n) < ProgressAfter(j, n)
  {
    var a, b := (i + 1) as real / n as real, (j + 1) as real / n as real;
    assert a < b;
  }

  /** The test account: the selected category, with its ceiling as the balance. */
  function TestAccount(t: AccountType, salt: string): ZkpEdge.Account {
    ZkpEdge.Account(Limit(t), salt, Some(TypeId(t)))
  }

  /**
   * The test account sits exactly at its ceiling: it complies, one more euro
   * would not, and the edge function's batch rule with the standard ceilings
   * agrees.
   */
  lemma TestAccountAtLimit(t: AccountType, salt: string)
    ensures Complies(TestAccount(t, salt).balance, t)
    ensures !Complies(TestAccount(t, salt).balance + 1, t)
    ensures ZkpEdge.BatchCompliant([TestAccount(t, salt)], ZkpEdge.StandardLimits())
  {
    ZkpEdge.StandardTableCompliance([TestAccount(t, salt)]);
  }

  /**
   * With the deployed hook and edge function, the hook's answer for the test
   * account is always `null`, so every run ends in the failure state.
   */
  lemma DeployedRunAlwaysFails(t: AccountType, salt: string, backend: ZkpEdge.Backend, coin: bool)
    ensures ZkProofHook.GenerateProof([TestAccount(t, salt)], ZkpEdge.DefaultLimit, backend, coin) == None
  {
    ZkProofHook.GenerateAlwaysRejected([TestAccount(t, salt)], ZkpEdge.DefaultLimit, backend, coin);
  }

  class ProofGenerator {
    var steps: seq<Step>
    var progress: real
    /** The record serialized into the proof text area; `None` is the empty text. */
    var generatedProof: Option<ZkProofHook.ProofResult>
    var proofMetadata: Option<ZkpEdge.Metadata>
    var selectedAccountType: AccountType
    var isGovAuthenticated: bool
    var notice: Option<Notice>

    /** The step list keeps its four steps and progress stays a percentage. */
    ghost predicate Valid()
      reads this
    {
      SameSteps(steps) && 0.0 <= progress <= 100.0
    }

    constructor ()
      ensures Valid()
      ensures steps == InitialSteps && progress == 0.0
      ensures generatedProof == None && proofMetadata == None
      ensures selectedAccountType == Individual && !isGovAuthenticated && notice == None
    {
      steps := InitialSteps;
      progress := 0.0;
      generatedProof := None;
      proofMetadata := None;
      selectedAccountType := Individual;
      isGovAuthenticated := false;
      notice := None;
    }

    /** `authenticateGovernment`: only the demo password grants access. */
    method AuthenticateGovernment(password: string)
      requires Valid()
      modifies this
      ensures Valid()
      ensures isGovAuthenticated == (old(isGovAuthenticated) || password == GovernmentPassword)
      ensures notice == if password == GovernmentPassword then old(notice) else Some(InvalidCredentials)
      ensures steps == old(steps) && progress == old(progress) && generatedProof == old(generatedProof)
      ensures proofMetadata == old(proofMetadata) && selectedAccountType == old(selectedAccountType)
    {
      if password == GovernmentPassword {
        isGovAuthenticated := true;
      } else {
        notice := Some(InvalidCredentials);
      }
    }

    /** The logout button. */
    method Logout()
      requires Valid()
      modifies this
      ensures Valid()
      ensures !isGovAuthenticated
      ensures steps == old(steps) && progress == old(progress) && generatedProof == old(generatedProof)
      ensures proofMetadata == old(proofMetadata) && selectedAccountType == old(selectedAccountType)
      ensures notice == old(notice)
    {
      isGovAuthenticated := false;
    }

    /** The category selector's `onValueChange`. */
    method SelectAccountType(t: AccountType)
      requires Valid()
      modifies this
      ensures Valid()
      ensures selectedAccountType == t
      ensures steps == old(steps) && progress == old(progress) && generatedProof == old(generatedProof)
      ensures proofMetadata == old(proofMetadata) && isGovAuthenticated == old(isGovAuthenticated)
      ensures notice == old(notice)
    {
      selectedAccountType := t;
    }

    /**
     * The end of `generateAccountTypeSpecificProof`, once the hook has
     * answered: a proof completes every step at 100% and is stored with its
     * metadata; no proof puts the last step in error and leaves the rest.
     */
    method ShowResult(result: Option<ZkProofHook.ProofResult>)
      requires Valid()
      modifies this
      ensures Valid()
      ensures isGovAuthenticated == old(isGovAuthenticated) && selectedAccountType == old(selectedAccountType)
      ensures notice == old(notice)
      ensures result.Some? ==>
        && (forall k :: 0 <= k < |steps| ==> steps[k].status == Completed)
        && progress == 100.0
        && generatedProof == result && proofMetadata == result.value.metadata
      ensures result.None? ==>
        && steps == LastStepFailed(old(steps))
        && progress == old(progress)
        && generatedProof == old(generatedProof) && proofMetadata == old(proofMetadata)
    {
      if result.Some? {
        generatedProof := result;
        proofMetadata := result.value.metadata;
        steps := WithStatus(steps, Completed);
        progress := 100.0;
      } else {
        steps := LastStepFailed(steps);
      }
    }

    /**
     * `generateAccountTypeSpecificProof`. `salt` is the test account's random
     * salt; `backend` and `coin` are what the edge function runs with.
     * Without access nothing changes but the alert. Otherwise the run resets,
     * walks the four steps, asks the hook for a proof of the selected
     * category's test account, and, since the hook's request is always
     * refused, ends with the earlier steps completed and the last one in error
     * at 80%, with no proof stored.
     */
    method GenerateAccountTypeSpecificProof(salt: string, backend: ZkpEdge.Backend, coin: bool)
      requires Valid()
      modifies this
      ensures Valid()
      ensures isGovAuthenticated == old(isGovAuthenticated) && selectedAccountType == old(selectedAccountType)
      ensures !isGovAuthenticated ==>
        && steps == old(steps) && progress == old(progress)
        && generatedProof == old(generatedProof) && proofMetadata == old(proofMetadata)
        && notice == Some(AccessRequired)
      ensures isGovAuthenticated ==>
        && (forall k :: 0 <= k < |steps| - 1 ==> steps[k].status == Completed)
        && steps[|steps| - 1].status == Error
        && progress == 80.0
        && generatedProof == None && proofMetadata == None
        && notice == old(notice)
    {
      if !isGovAuthenticated {
        notice := Some(AccessRequired);
        return;
      }
      var n := |steps|;
      progress := 0.0;
      generatedProof := None;
      proofMetadata := None;
      steps := WithStatus(steps, Pending);

      var i := 0;
      while i < n
        invariant 0 <= i <= n == |steps|
        invariant SameSteps(steps)
        invariant i > 0 ==> forall k :: 0 <= k < n ==> steps[k].status == StageStatus(k, i - 1)
        invariant progress == if i == 0 then 0.0 else ProgressAfter(i - 1, n)
        invariant generatedProof == None && proofMetadata == None
        invariant isGovAuthenticated && selectedAccountType == old(selectedAccountType) && notice == old(notice)
      {
        steps := Staged(steps, i);
        progress := ProgressAfter(i, n);
        i := i + 1;
      }

      var result := ZkProofHook.GenerateProof([TestAccount(selectedAccountType, salt)], ZkpEdge.DefaultLimit, backend, coin);
      DeployedRunAlwaysFails(selectedAccountType, salt, backend, coin);
      ShowResult(result);
    }
  }
}

=== FILE: ServiceBoundary.dfy ===
/**
 * The edge function talking to the Rust service: how the service reads the
 * edge function's Spartan requests, and what the edge function receives back.
 */
module ServiceBoundary {
  import opened Common
  import ZkpEdge
  import SpartanService

  /**
   * The service's decoding of an edge request body: `account_types` and
   * `account_limits` are not fields of its request and are ignored, there is
   * no `max_balance`, and a balance outside `i32` fails decoding (a 400 reply).
   */
  function Deserialize(r: ZkpEdge.SpartanRequest): (d: Option<SpartanService.ZkpRequest>)
    ensures d.None? <==> r.witnessData.Some? && exists i :: 0 <= i < |r.witnessData.value| && !SpartanService.IsI32(r.witnessData.value[i])
    ensures d.Some? ==>
      && d.value.operation == r.operation
      && d.value.maxBalance.None?
      && d.value.proofData == r.proofData
      && d.value.publicInputs == r.publicInputs
      && (d.value.witnessData.Some? <==> r.witnessData.Some?)
    ensures d.Some? && r.witnessData.Some? ==> d.value.witnessData.value == r.witnessData.value
  {
    if r.witnessData.Some? && exists i :: 0 <= i < |r.witnessData.value| && !SpartanService.IsI32(r.witnessData.value[i]) then None
    else
      var w: Option<seq<SpartanService.I32>> :=
        if r.witnessData.Some? then Some(r.witnessData.value) else None;
      Some(SpartanService.ZkpRequest(r.operation, w, None, r.proofData, r.publicInputs))
  }

  /** What the edge function's fetch yields: the reply on status 200, `None` (fallback) otherwise. */
  function RustReply(r: ZkpEdge.SpartanRequest): Option<ZkpEdge.SpartanResponse> {
    match Deserialize(r)
    case None => None
    case Some(zr) =>
      var resp := SpartanService.ZkpOperations(zr);
      if SpartanService.StatusCode(resp) == 200 then
        Some(ZkpEdge.SpartanResponse(resp.success, resp.proof, resp.publicSignals, resp.verificationResult, resp.error))
      else None
  }

  /** The edge function configured with the Rust service's URL. */
  function RustBackend(): ZkpEdge.Backend {
    ZkpEdge.Configured(RustReply)
  }

  /**
   * The service rejects every prove request of the edge function, which sends
   * `account_limits` but never `max_balance`; the edge function then falls
   * back to its simulation.
   */
  lemma EdgeProveRejectedByRust(accounts: seq<ZkpEdge.Account>, table: map<string, int>)
    ensures var req := ZkpEdge.ProveRequest(accounts, table);
      && RustReply(req).None?
      && (Deserialize(req).Some? ==>
            && SpartanService.ZkpOperations(Deserialize(req).value).error == Some(SpartanService.MissingProveInputs)
            && SpartanService.StatusCode(SpartanService.ZkpOperations(Deserialize(req).value)) == 400)
  {
  }

  /** The service answers every verify request of the edge function with "the proof parses". */
  lemma EdgeVerifyAnsweredByRust(proof: Text, signals: seq<string>)
    ensures RustReply(ZkpEdge.VerifyRequest(proof, signals))
         == Some(ZkpEdge.SpartanResponse(true, None, None, Some(proof.Encoded?), None))
  {
  }

  /**
   * With the Rust service configured, the generate/verify round trip accepts
   * every batch: proving is simulated and reports the batch's bit, but the
   * service accepts any proof that parses, including the proof of a batch
   * whose bit is 0.
   */
  lemma RustDeploymentAcceptsEveryBatch(accounts: seq<ZkpEdge.Account>, accountTypes: map<string, int>,
                                        limits: map<string, int>, coin: bool, verifyCoin: bool)
    ensures var g := ZkpEdge.Serve("POST", Some(ZkpEdge.GenerateRequest(accounts, accountTypes, limits)), RustBackend(), coin);
      && g.status == 200
      && g.body.value.publicSignals == Some([ZkpEdge.ComplianceBit(ZkpEdge.BatchCompliant(accounts, limits))])
      && var vreq := ZkpEdge.ProofRequest("verify", None, g.body.value.proof, g.body.value.publicSignals, None, None, None);
         var v := ZkpEdge.Serve("POST", Some(vreq), RustBackend(), verifyCoin);
         v.status == 200 && v.body.value.verificationResult == Some(true)
  {
    var req := ZkpEdge.ProveRequest(accounts, limits);
    EdgeProveRejectedByRust(accounts, limits);
    ZkpEdge.ProveRequestMatchesBatchRule(accounts, limits);
    assert ZkpEdge.CallSpartanService(req, RustBackend(), coin) == ZkpEdge.FallbackSimulation(req, coin);
    var p := ZkpEdge.FallbackSimulation(req, coin);
    EdgeVerifyAnsweredByRust(p.proof.value, p.publicSignals.value);
  }
}

=== FILE: SpartanService.dfy ===
/**
 * The `/zkp` handler of the Rust service: a pure map from a decoded request to
 * a response and an HTTP status. Its "proof" is a fixed-shape JSON record
 * that does not depend on the balances, and its verification only checks that
 * the proof text parses as JSON.
 */
module SpartanService {
  import opened Common

  /** The range of a Rust `i32`. */
  predicate IsI32(x: int) {
    -0x8000_0000 <= x < 0x8000_0000
  }

  /** A Rust `i32`. */
  type I32 = x: int | IsI32(x) witness 0

  /** The request body (`ZkpRequest`); serde ignores fields it does not name. */
  datatype ZkpRequest = ZkpRequest(
    operation: string,
    witnessData: Option<seq<I32>>,
    maxBalance: Option<I32>,
    proofData: Option<Text>,
    publicInputs: Option<seq<string>>)

  /** The response body (`ZkpResponse`), without `processing_time_ms`. */
  datatype ZkpResponse = ZkpResponse(
    success: bool,
    proof: Option<Text>,
    publicSignals: Option<seq<string>>,
    verificationResult: Option<bool>,
    error: Option<string>)

  const MissingProveInputs := "Missing witness_data or max_balance"
  const MissingVerifyInputs := "Missing proof_data or public_inputs"

  /** `generate_spartan_proof`, without its `timestamp` field. */
  function GenerateSpartanProof(witnessData: seq<I32>, maxBalance: I32): Text {
    Encoded(JObj(map[
      "pi_a" := JStr("0x" + Repeat('a', 64)),
      "pi_b" := JStr("0x" + Repeat('b', 64)),
      "pi_c" := JStr("0x" + Repeat('c', 64)),
      "protocol" := JStr("spartan-v1"),
      "accounts_verified" := JNum(|witnessData|),
      "max_balance" := JNum(maxBalance as int)]))
  }

  /** `verify_spartan_proof`: the proof text parses as JSON; the public inputs are not read. */
  function VerifySpartanProof(proofData: Text, publicInputs: seq<string>): bool {
    Parse(proofData).Some?
  }

  function Failure(message: string): ZkpResponse {
    ZkpResponse(false, None, None, None, Some(message))
  }

  /** `zkp_operations` without its timing. */
  function ZkpOperations(req: ZkpRequest): (r: ZkpResponse)
    ensures r.success ==> r.error.None?
    ensures !r.success ==>
      r.error.Some? && r.proof.None? && r.publicSignals.None? && r.verificationResult.None?
    ensures r.success ==> (r.proof.Some? <==> req.operation == "prove")
    ensures r.success ==> (r.verificationResult.Some? <==> req.operation == "verify")
  {
    if req.operation == "prove" then
      if req.witnessData.Some? && req.maxBalance.Some? then
        ZkpResponse(true, Some(GenerateSpartanProof(req.witnessData.value, req.maxBalance.value)),
                    Some(["1"]), None, None)
      else Failure(MissingProveInputs)
    else if req.operation == "verify" then
      if req.proofData.Some? && req.publicInputs.Some? then
        ZkpResponse(true, None, None,
                    Some(VerifySpartanProof(req.proofData.value, req.publicInputs.value)), None)
      else Failure(MissingVerifyInputs)
    else
      Failure("Unknown operation: " + req.operation)
  }

  /** The HTTP status of a response: OK for success, Bad Request otherwise. */
  function StatusCode(r: ZkpResponse): (code: int)
    ensures code == 200 <==> r.success
    ensures code == 400 <==> !r.success
  {
    if r.success then 200 else 400
  }

  // ---------------------------------------------------------------------------
  // Properties

  /** Prove succeeds iff both the witness and `max_balance` are present. */
  lemma ProveNeedsWitnessAndMaxBalance(req: ZkpRequest)
    requires req.operation == "prove"
    ensures ZkpOperations(req).success <==> req.witnessData.Some? && req.maxBalance.Some?
    ensures !ZkpOperations(req).success ==>
      ZkpOperations(req) == ZkpResponse(false, None, None, None, Some(MissingProveInputs))
  {
  }

  /**
   * A successful prove answers `["1"]` whatever the balances, even when a
   * balance exceeds `max_balance`, and its proof depends only on the batch
   * size and `max_balance`.
   */
  lemma ProveIgnoresBalances(w1: seq<I32>, w2: seq<I32>, maxBalance: I32)
    requires exists i :: 0 <= i < |w1| && w1[i] > maxBalance
    ensures var r := ZkpOperations(ZkpRequest("prove", Some(w1), Some(maxBalance), None, None));
      r.success && r.publicSignals == Some(["1"])
    ensures |w1| == |w2| ==> GenerateSpartanProof(w1, maxBalance) == GenerateSpartanProof(w2, maxBalance)
  {
  }

  /** The proof record counts the witness and echoes `max_balance`. */
  lemma ProofRecordContents(w: seq<I32>, maxBalance: I32)
    ensures var p := GenerateSpartanProof(w, maxBalance);
      && Parse(p).Some?
      && Member(Parse(p).value, "accounts_verified") == Value(Some(JNum(|w|)))
      && Member(Parse(p).value, "max_balance") == Value(Some(JNum(maxBalance as int)))
      && Member(Parse(p).value, "protocol") == Value(Some(JStr("spartan-v1")))
  {
  }

  /** Verify succeeds iff both inputs are present; its result is "the proof parses". */
  lemma VerifyChecksOnlyParsing(req: ZkpRequest, otherInputs: seq<string>)
    requires req.operation == "verify"
    ensures ZkpOperations(req).success <==> req.proofData.Some? && req.publicInputs.Some?
    ensures ZkpOperations(req).success ==>
      ZkpOperations(req).verificationResult == Some(req.proofData.value.Encoded?)
    ensures req.publicInputs.Some? ==>
      ZkpOperations(req) == ZkpOperations(req.(publicInputs := Some(otherInputs)))
    ensures !ZkpOperations(req).success ==> ZkpOperations(req).error == Some(MissingVerifyInputs)
  {
  }

  /** Any other operation is a failure naming it, answered with status 400. */
  lemma UnknownOperation(req: ZkpRequest)
    requires req.operation != "prove" && req.operation != "verify"
    ensures ZkpOperations(req) == Failure("Unknown operation: " + req.operation)
    ensures StatusCode(ZkpOperations(req)) == 400
  {
  }
}

=== FILE: SystemOverview.dfy ===
/**
 * The overview statistics over the application's account list: counts by
 * category, per-account compliance under the category ceilings, the
 * compliance rate, the average utilisation and the issue alert.
 *
 * Percentages are exact rationals (`real`) here.
 */
module SystemOverview {
  import opened Common
  import opened AccountTypes
  import opened AppAccounts

  /** `account.accountType || 'individual'`. */
  function TypeOf(a: Account): AccountType {
    a.accountType.GetOr(Individual)
  }

  /** The `reduce` that tallies accounts into a record keyed by category. */
  function AccountsByType(s: seq<Account>): map<AccountType, nat> {
    if s == [] then map[]
    else
      var acc := AccountsByType(s[..|s| - 1]);
      var t := TypeOf(s[|s| - 1]);
      acc[t := (if t in acc then acc[t] else 0) + 1]
  }

  /** `accountsByType[typeInfo.id] || 0`. */
  function TypeCount(s: seq<Account>, t: AccountType): nat {
    var m := AccountsByType(s);
    if t in m then m[t] else 0
  }

  /** The number of accounts of a category, counted directly. */
  function CountOfType(s: seq<Account>, t: AccountType): (n: nat)
    ensures n <= |s|
  {
    if s == [] then 0
    else CountOfType(s[..|s| - 1], t) + (if TypeOf(s[|s| - 1]) == t then 1 else 0)
  }

  /** The tally holds a category iff some account has it, with that category's count. */
  lemma {:induction false} AccountsByTypeCounts(s: seq<Account>, t: AccountType)
    ensures TypeCount(s, t) == CountOfType(s, t)
    ensures t in AccountsByType(s) <==> exists i :: 0 <= i < |s| && TypeOf(s[i]) == t
  {
    if s != [] {
      var init := s[..|s| - 1];
      AccountsByTypeCounts(init, t);
      if t !in AccountsByType(s) {
        forall i | 0 <= i < |s| ensures TypeOf(s[i]) != t {
          if i < |s| - 1 {
            assert s[i] == init[i];
          }
        }
      } else if TypeOf(s[|s| - 1]) != t {
        var i :| 0 <= i < |init| && TypeOf(init[i]) == t;
        assert s[i] == init[i];
      }
    }
  }

  /** The per-category counts add up to the number of accounts. */
  lemma {:induction false} ByTypeSumsToTotal(s: seq<Account>)
    ensures TypeCount(s, Individual) + TypeCount(s, Association) + TypeCount(s, LargeCondominium) == |s|
  {
    AccountsByTypeCounts(s, Individual);
    AccountsByTypeCounts(s, Association);
    AccountsByTypeCounts(s, LargeCondominium);
    CountsSumToLength(s);
  }

  lemma {:induction false} CountsSumToLength(s: seq<Account>)
    ensures CountOfType(s, Individual) + CountOfType(s, Association) + CountOfType(s, LargeCondominium) == |s|
  {
    if s != [] {
      CountsSumToLength(s[..|s| - 1]);
    }
  }

  /** `account.balance <= typeInfo.limit` for the account's category. */
  predicate IsCompliant(a: Account) {
    Complies(a.balance, TypeOf(a))
  }

  /** `complianceStats.filter(stat => stat.isCompliant).length`. */
  function CompliantAccounts(s: seq<Account>): (c: nat)
    ensures c <= |s|
  {
    if s == [] then 0
    else CompliantAccounts(s[..|s| - 1]) + (if IsCompliant(s[|s| - 1]) then 1 else 0)
  }

  /** Every account complies iff all of them are counted as compliant. */
  lemma {:induction false} AllCompliantIffFullCount(s: seq<Account>)
    ensures CompliantAccounts(s) == |s| <==> forall i :: 0 <= i < |s| ==> IsCompliant(s[i])
  {
    if s != [] {
      var init := s[..|s| - 1];
      AllCompliantIffFullCount(init);
      if forall i :: 0 <= i < |s| ==> IsCompliant(s[i]) {
        forall i | 0 <= i < |init| ensures IsCompliant(init[i]) {
          assert init[i] == s[i];
        }
      } else if CompliantAccounts(s) == |s| {
        assert IsCompliant(s[|s| - 1]);
        forall i | 0 <= i < |s| ensures IsCompliant(s[i]) {
          if i < |s| - 1 {
            assert s[i] == init[i];
          }
        }
      }
    }
  }

  /** `(compliantAccounts / totalAccounts) * 100`, and 100 for an empty list. */
  function ComplianceRate(s: seq<Account>): real {
    if |s| > 0 then (CompliantAccounts(s) as real / |s| as real) * 100.0 else 100.0
  }

  /** `(account.balance / typeInfo.limit) * 100`. */
  function Utilization(a: Account): real {
    (a.balance as real / Limit(TypeOf(a)) as real) * 100.0
  }

  function UtilizationSum(s: seq<Account>): real {
    if s == [] then 0.0 else UtilizationSum(s[..|s| - 1]) + Utilization(s[|s| - 1])
  }

  /** The mean utilisation, and 0 for an empty list. */
  function AverageUtilization(s: seq<Account>): real {
    if |s| > 0 then UtilizationSum(s) / |s| as real else 0.0
  }

  /** A category's share of the list, and 0 for an empty list. */
  function TypePercentage(s: seq<Account>, t: AccountType): real {
    if |s| > 0 then (TypeCount(s, t) as real / |s| as real) * 100.0 else 0.0
  }

  /** The issue alert is shown when `complianceRate < 100`. */
  predicate AlertShown(s: seq<Account>) {
    ComplianceRate(s) < 100.0
  }

  /** The number the alert reports: `totalAccounts - compliantAccounts`. */
  function ReportedIssues(s: seq<Account>): int {
    |s| - CompliantAccounts(s)
  }

  /** A count over a positive total gives a quotient between 0 and 1, equal to 1 only for the full count. */
  lemma Ratio(c: nat, n: nat)
    requires c <= n && n > 0
    ensures 0.0 <= c as real / n as real <= 1.0
    ensures c as real / n as real == 1.0 <==> c == n
  {
    var q := c as real / n as real;
    assert q * n as real == c as real;
  }

  /** The compliance rate is a percentage. */
  lemma RateIsPercentage(s: seq<Account>)
    ensures 0.0 <= ComplianceRate(s) <= 100.0
  {
    if |s| > 0 {
      Ratio(CompliantAccounts(s), |s|);
    }
  }

  /**
   * The alert is shown iff some account is above its ceiling, and then it
   * reports at least one account.
   */
  lemma AlertIffSomeNonCompliant(s: seq<Account>)
    ensures AlertShown(s) <==> exists i :: 0 <= i < |s| && !IsCompliant(s[i])
    ensures AlertShown(s) ==> ReportedIssues(s) >= 1
    ensures !AlertShown(s) ==> ReportedIssues(s) == 0
  {
    AllCompliantIffFullCount(s);
    if |s| > 0 {
      Ratio(CompliantAccounts(s), |s|);
    }
  }

  /** An account complies iff its utilisation is at most 100%. */
  lemma CompliantIffUtilizationAtMostHundred(a: Account)
    ensures IsCompliant(a) <==> Utilization(a) <= 100.0
  {
    var l := Limit(TypeOf(a)) as real;
    assert l > 0.0;
    assert Utilization(a) * l == a.balance as real * 100.0;
  }

  /** When every account complies, the utilisations add up to at most 100 per account. */
  lemma {:induction false} UtilizationSumBound(s: seq<Account>)
    requires forall i :: 0 <= i < |s| ==> IsCompliant(s[i])
    ensures UtilizationSum(s) <= 100.0 * |s| as real
  {
    if s != [] {
      var init := s[..|s| - 1];
      forall i | 0 <= i < |init| ensures IsCompliant(init[i]) {
        assert init[i] == s[i];
      }
      UtilizationSumBound(init);
      CompliantIffUtilizationAtMostHundred(s[|s| - 1]);
    }
  }

  /** When every account complies, the average utilisation is at most 100%. */
  lemma AllCompliantAverageAtMostHundred(s: seq<Account>)
    requires forall i :: 0 <= i < |s| ==> IsCompliant(s[i])
    ensures AverageUtilization(s) <= 100.0
  {
    if |s| > 0 {
      UtilizationSumBound(s);
      var n := |s| as real;
      assert AverageUtilization(s) * n == UtilizationSum(s);
    }
  }

  /** Three counts that make up a positive total give shares that add up to 100. */
  lemma SharesOfTotal(a: nat, b: nat, c: nat, n: nat)
    requires n > 0 && a + b + c == n
    ensures (a as real / n as real) * 100.0 + (b as real / n as real) * 100.0 + (c as real / n as real) * 100.0 == 100.0
  {
    var r := n as real;
    var x, y, z := a as real / r, b as real / r, c as real / r;
    calc {
      (x + y + z) * r;
      x * r + y * r + z * r;
      (a as real) + (b as real) + (c as real);
      (a + b + c) as real;
      r;
      1.0 * r;
    }
    assert (x + y + z - 1.0) * r == 0.0;
  }

  /** Over a non-empty list each category's share is a percentage, and the three shares add up to 100. */
  lemma TypeSharesSumToHundred(s: seq<Account>)
    requires |s| > 0
    ensures forall t :: 0.0 <= TypePercentage(s, t) <= 100.0
    ensures TypePercentage(s, Individual) + TypePercentage(s, Association) + TypePercentage(s, LargeCondominium) == 100.0
  {
    forall t ensures 0.0 <= TypePercentage(s, t) <= 100.0 {
      AccountsByTypeCounts(s, t);
      Ratio(TypeCount(s, t), |s|);
    }
    ByTypeSumsToTotal(s);
    SharesOfTotal(TypeCount(s, Individual), TypeCount(s, Association), TypeCount(s, LargeCondominium), |s|);
  }

  /** An empty list reads as fully compliant with no utilisation and no category share. */
  lemma EmptyOverview(t: AccountType)
    ensures ComplianceRate([]) == 100.0
    ensures AverageUtilization([]) == 0.0
    ensures TypePercentage([], t) == 0.0
    ensures !AlertShown([])
  {
  }
}

=== FILE: ZkProofHook.dfy ===
/**
 * The client side of the edge function (the `useZKProof` hook): the request
 * bodies it sends and how it reads the replies. Only the request shapes and
 * the reading of replies are modelled; the transport is the edge function's
 * handler applied to the body.
 */
module ZkProofHook {
  import opened Common
  import ZkpEdge

  /**
   * The body of `generateProof`: `{operation: 'generate', accounts, maxBalance}`.
   * The edge function's request has no `maxBalance` field and the hook sends
   * neither `accountTypes` nor `accountTypeLimits`.
   */
  function GenerateRequestBody(accounts: seq<ZkpEdge.Account>, maxBalance: int): ZkpEdge.ProofRequest {
    ZkpEdge.ProofRequest("generate", Some(accounts), None, None, None, None, None)
  }

  /** The body of `verifyProof`: `{operation: 'verify', proof, publicSignals}`. */
  function VerifyRequestBody(proof: Text, publicSignals: seq<string>): ZkpEdge.ProofRequest {
    ZkpEdge.ProofRequest("verify", None, Some(proof), Some(publicSignals), None, None, None)
  }

  datatype ProofResult = ProofResult(
    proof: Option<Text>,
    publicSignals: Option<seq<string>>,
    metadata: Option<ZkpEdge.Metadata>)

  /** A reply counts only with a 2xx status and `success`; otherwise the hook returns `null`. */
  predicate Accepted(reply: ZkpEdge.HttpResponse) {
    200 <= reply.status < 300 && reply.body.Some? && reply.body.value.success
  }

  /** `generateProof`: the result, or `None` for the hook's `null`. */
  function GenerateProof(accounts: seq<ZkpEdge.Account>, maxBalance: int,
                         backend: ZkpEdge.Backend, coin: bool): (r: Option<ProofResult>)
    ensures r.Some? <==> Accepted(ZkpEdge.Serve("POST", Some(GenerateRequestBody(accounts, maxBalance)), backend, coin))
  {
    var reply := ZkpEdge.Serve("POST", Some(GenerateRequestBody(accounts, maxBalance)), backend, coin);
    if Accepted(reply) then
      Some(ProofResult(reply.body.value.proof, reply.body.value.publicSignals, reply.body.value.metadata))
    else None
  }

  /** `verifyProof`: the reply's `verificationResult`, or `None` for the hook's `null`. */
  function VerifyProof(proof: Text, publicSignals: seq<string>,
                       backend: ZkpEdge.Backend, coin: bool): (r: Option<bool>)
    ensures r.Some? <==> Accepted(ZkpEdge.Serve("POST", Some(VerifyRequestBody(proof, publicSignals)), backend, coin))
  {
    var reply := ZkpEdge.Serve("POST", Some(VerifyRequestBody(proof, publicSignals)), backend, coin);
    if Accepted(reply) then Some(reply.body.value.verificationResult.GetOr(false)) else None
  }

  /**
   * The edge function rejects every generate request the hook sends, so the
   * hook's proof generation never yields a proof, whatever the batch and backend.
   */
  lemma GenerateAlwaysRejected(accounts: seq<ZkpEdge.Account>, maxBalance: int,
                               backend: ZkpEdge.Backend, coin: bool)
    ensures ZkpEdge.Serve("POST", Some(GenerateRequestBody(accounts, maxBalance)), backend, coin)
         == ZkpEdge.ErrorResponse(ZkpEdge.MissingGenerateInputs)
    ensures GenerateProof(accounts, maxBalance, backend, coin) == None
  {
    ZkpEdge.GenerateNeedsAllInputs(GenerateRequestBody(accounts, maxBalance), backend, coin);
  }
}

=== FILE: ZkpEdge.dfy ===
/**
 * The `zkp-operations` edge function: request validation and dispatch
 * (`serve`), the preparation of a Spartan prove request from an account batch
 * (`generateProof`), the mapping of a Spartan verify reply (`verifyProof`), and
 * the simulation that stands in for the Spartan service when it is not
 * configured or cannot be reached (`fallbackSimulation`).
 *
 * The "proof" of the simulation carries the batch's compliance bit in clear;
 * its verification reads that bit back. The all-or-nothing batch rule is: the
 * batch complies iff no balance is strictly above its effective limit. A
 * limit looked up under a category named after an `Object.prototype` member
 * is not a number, and no balance is above it.
 */
module ZkpEdge {
  import opened Common
  import AccountTypes

  /** The limit used for a missing or zero limit. */
  const DefaultLimit: int := 100000

  /** An account of the request body; `accountType` is optional on the wire. */
  datatype Account = Account(balance: int, salt: string, accountType: Option<string>)

  /** The request body of the edge function (`ProofRequest`). */
  datatype ProofRequest = ProofRequest(
    operation: string,
    accounts: Option<seq<Account>>,
    proof: Option<Text>,
    publicSignals: Option<seq<string>>,
    accountTypes: Option<map<string, int>>,
    accountTypeLimits: Option<map<string, int>>,
    allCompliant: Option<bool>)

  /** Response metadata; timestamps and processing times are not modelled. */
  datatype Metadata = Metadata(
    protocol: string,
    accountsVerified: nat,
    accountTypes: Option<map<string, int>>,
    accountTypeLimits: Option<map<string, int>>)

  datatype ProofResponse = ProofResponse(
    success: bool,
    proof: Option<Text>,
    publicSignals: Option<seq<string>>,
    verificationResult: Option<bool>,
    error: Option<string>,
    metadata: Option<Metadata>)

  /** An HTTP reply; the CORS preflight reply has no body. */
  datatype HttpResponse = HttpResponse(status: int, body: Option<ProofResponse>)

  /** The request sent to the Spartan service (`SpartanServiceRequest`). */
  datatype SpartanRequest = SpartanRequest(
    operation: string,
    witnessData: Option<seq<int>>,
    accountTypes: Option<seq<string>>,
    accountLimits: Option<seq<Bound>>,
    proofData: Option<Text>,
    publicInputs: Option<seq<string>>)

  /** The reply of the Spartan service (`SpartanServiceResponse`), without timing. */
  datatype SpartanResponse = SpartanResponse(
    success: bool,
    proof: Option<Text>,
    publicSignals: Option<seq<string>>,
    verificationResult: Option<bool>,
    error: Option<string>)

  /**
   * How `callSpartanService` is set up. Without a service URL every call is
   * simulated. With one, `remote` is what the service answers: `None` when the
   * fetch fails or the status is not 2xx, in which case the call is simulated too.
   */
  datatype Backend =
    | Unconfigured
    | Configured(remote: SpartanRequest -> Option<SpartanResponse>)

  /**
   * A per-account limit as the edge function holds it: a number, or the
   * non-number value (a function, or the prototype object itself) that a
   * lookup under an `Object.prototype` member's name finds on a plain object.
   */
  datatype Bound = Finite(n: int) | Inherited

  /** The property names a plain object inherits from `Object.prototype`. */
  predicate InheritedName(s: string) {
    s in {"constructor", "hasOwnProperty", "isPrototypeOf", "propertyIsEnumerable",
          "toLocaleString", "toString", "valueOf", "__proto__",
          "__defineGetter__", "__defineSetter__", "__lookupGetter__", "__lookupSetter__"}
  }

  /** `balance > limit`: against a non-number the comparison is with `NaN`, so false. */
  predicate Exceeds(balance: int, limit: Bound) {
    limit.Finite? && balance > limit.n
  }

  /** A value, or the message of an `Error` thrown on the way. */
  datatype Outcome<+T> = Done(value: T) | Thrown(message: string)

  // ---------------------------------------------------------------------------
  // fallbackSimulation

  /** `account_limits[i] || 100000`: an absent or zero limit becomes 100000. */
  function EffectiveLimit(limits: seq<Bound>, i: nat): (b: Bound)
    ensures b != Finite(0)
    ensures i >= |limits| ==> b == Finite(DefaultLimit)
  {
    if i < |limits| && limits[i] != Finite(0) then limits[i] else Finite(DefaultLimit)
  }

  /** The simulated prove verdict: no balance strictly above its effective limit. */
  predicate WitnessCompliant(witnessData: Option<seq<int>>, limits: Option<seq<Bound>>) {
    witnessData.None? || limits.None? ||
    forall i :: 0 <= i < |witnessData.value| ==> !Exceeds(witnessData.value[i], EffectiveLimit(limits.value, i))
  }

  /** The loop of the simulated prove branch, with its early exit at the first violation. */
  method CheckWitness(witnessData: Option<seq<int>>, limits: Option<seq<Bound>>) returns (allCompliant: bool)
    ensures allCompliant == WitnessCompliant(witnessData, limits)
  {
    allCompliant := true;
    if witnessData.Some? && limits.Some? {
      var w, l := witnessData.value, limits.value;
      var i := 0;
      while i < |w|
        invariant 0 <= i <= |w|
        invariant allCompliant
        invariant forall j :: 0 <= j < i ==> !Exceeds(w[j], EffectiveLimit(l, j))
      {
        if Exceeds(w[i], EffectiveLimit(l, i)) {
          allCompliant := false;
          break;
        }
        i := i + 1;
      }
    }
  }

  function ComplianceBit(compliant: bool): string {
    if compliant then "1" else "0"
  }

  /** The proof record of the simulation; its random `pi_a`/`pi_b`/`pi_c` are not modelled. */
  function SimulatedProof(compliant: bool): Json {
    JObj(map["protocol" := JStr("spartan-simulation"), "compliance" := JBool(compliant)])
  }

  /**
   * The simulated verdict: parse `proof_data || '{}'` and accept unless its
   * `compliance` is `false`; `coin` is the random verdict (`Math.random() > 0.1`)
   * used when parsing or the property access throws.
   */
  function SimulatedVerdict(proofData: Option<Text>, coin: bool): bool {
    var text := if proofData.Some? && TextTruthy(proofData.value) then proofData.value
                else Encoded(JObj(map[]));
    match Parse(text)
    case None => coin
    case Some(v) =>
      match Member(v, "compliance")
      case Throws => coin
      case Value(c) => c != Some(JBool(false))
  }

  function FallbackSimulation(request: SpartanRequest, coin: bool): (r: SpartanResponse)
    ensures r.success && r.error.None?
    ensures request.operation == "prove" <==> r.proof.Some?
    ensures request.operation == "prove" <==> r.verificationResult.None?
    ensures r.publicSignals.Some? <==> r.proof.Some?
  {
    if request.operation == "prove" then
      var compliant := WitnessCompliant(request.witnessData, request.accountLimits);
      SpartanResponse(true, Some(Encoded(SimulatedProof(compliant))), Some([ComplianceBit(compliant)]), None, None)
    else
      SpartanResponse(true, None, None, Some(SimulatedVerdict(request.proofData, coin)), None)
  }

  /** What `callSpartanService` returns for a request. */
  function CallSpartanService(request: SpartanRequest, backend: Backend, coin: bool): SpartanResponse {
    match backend
    case Unconfigured => FallbackSimulation(request, coin)
    case Configured(remote) =>
      match remote(request)
      case Some(reply) => reply
      case None => FallbackSimulation(request, coin)
  }

  /** The protocol named in response metadata depends on configuration only. */
  function Protocol(backend: Backend): string {
    if backend.Configured? then "spartan-external-service" else "spartan-simulation"
  }

  /** `e || fallback` for an optional error message. */
  function ErrorText(e: Option<string>, fallback: string): string {
    if e.Some? && e.value != "" then e.value else fallback
  }

  // ---------------------------------------------------------------------------
  // generateProof

  /** `account.accountType || 'individual'`. */
  function TypeOrDefault(a: Account): string {
    if a.accountType.Some? && a.accountType.value != "" then a.accountType.value else "individual"
  }

  /**
   * `accountTypeLimits[accountType] || 100000` on the plain object the request
   * body parses to: an own entry (0 reads as 100000), else the inherited
   * member for an `Object.prototype` name, else 100000.
   */
  function LimitFor(table: map<string, int>, accountType: string): (b: Bound)
    ensures b != Finite(0)
    ensures b.Inherited? <==> accountType !in table && InheritedName(accountType)
    ensures accountType in table && table[accountType] != 0 ==> b == Finite(table[accountType])
  {
    if accountType in table then
      (if table[accountType] != 0 then Finite(table[accountType]) else Finite(DefaultLimit))
    else if InheritedName(accountType) then Inherited
    else Finite(DefaultLimit)
  }

  /** `accounts.map(account => account.balance)`. */
  function WitnessData(accounts: seq<Account>): (w: seq<int>)
    ensures |w| == |accounts|
    ensures forall i :: 0 <= i < |accounts| ==> w[i] == accounts[i].balance
  {
    if accounts == [] then []
    else WitnessData(accounts[..|accounts| - 1]) + [accounts[|accounts| - 1].balance]
  }

  /** `accounts.map(account => account.accountType || 'individual')`. */
  function TypesArray(accounts: seq<Account>): (t: seq<string>)
    ensures |t| == |accounts|
    ensures forall i :: 0 <= i < |accounts| ==> t[i] == TypeOrDefault(accounts[i])
  {
    if accounts == [] then []
    else TypesArray(accounts[..|accounts| - 1]) + [TypeOrDefault(accounts[|accounts| - 1])]
  }

  /** The per-account limits looked up in the request's table. */
  function LimitsArray(accounts: seq<Account>, table: map<string, int>): (l: seq<Bound>)
    ensures |l| == |accounts|
    ensures forall i :: 0 <= i < |accounts| ==> l[i] == LimitFor(table, TypeOrDefault(accounts[i]))
    ensures forall i :: 0 <= i < |accounts| ==> l[i] != Finite(0)
  {
    if accounts == [] then []
    else LimitsArray(accounts[..|accounts| - 1], table) + [LimitFor(table, TypeOrDefault(accounts[|accounts| - 1]))]
  }

  /** The prove request `generateProof` sends: no `max_balance` field. */
  function ProveRequest(accounts: seq<Account>, table: map<string, int>): SpartanRequest {
    SpartanRequest("prove", Some(WitnessData(accounts)), Some(TypesArray(accounts)),
                   Some(LimitsArray(accounts, table)), None, None)
  }

  /** The edge function's batch rule: no balance above its type's limit. */
  predicate BatchCompliant(accounts: seq<Account>, table: map<string, int>) {
    forall i :: 0 <= i < |accounts| ==> !Exceeds(accounts[i].balance, LimitFor(table, TypeOrDefault(accounts[i])))
  }

  datatype GenerateResult = GenerateResult(
    proof: Option<Text>,
    publicSignals: Option<seq<string>>,
    metadata: Metadata)

  /** `generateProof`; the `allCompliant` argument is accepted and never read. */
  function GenerateProof(accounts: seq<Account>, accountTypes: map<string, int>,
                         accountTypeLimits: map<string, int>, allCompliant: bool,
                         backend: Backend, coin: bool): (r: Outcome<GenerateResult>)
    ensures r.Done? <==> CallSpartanService(ProveRequest(accounts, accountTypeLimits), backend, coin).success
    ensures r.Done? ==> r.value.metadata.accountsVerified == |accounts|
    ensures r.Done? ==> r.value.metadata.accountTypes == Some(accountTypes)
    ensures r.Done? ==> r.value.metadata.accountTypeLimits == Some(accountTypeLimits)
    ensures r.Thrown? ==> r.message != ""
  {
    var reply := CallSpartanService(ProveRequest(accounts, accountTypeLimits), backend, coin);
    if !reply.success then
      Thrown(ErrorText(reply.error, "Spartan proof generation failed"))
    else
      Done(GenerateResult(reply.proof, reply.publicSignals,
                          Metadata(Protocol(backend), |accounts|, Some(accountTypes), Some(accountTypeLimits))))
  }

  // ---------------------------------------------------------------------------
  // verifyProof

  datatype VerifyResult = VerifyResult(isValid: bool, compliance: bool)

  /** The verify request `verifyProof` sends. */
  function VerifyRequest(proof: Text, publicSignals: seq<string>): SpartanRequest {
    SpartanRequest("verify", None, None, None, Some(proof), Some(publicSignals))
  }

  /** `verifyProof`: a missing `verification_result` counts as `false`. */
  function VerifyProof(proof: Text, publicSignals: seq<string>, backend: Backend, coin: bool): (r: Outcome<VerifyResult>)
    ensures var reply := CallSpartanService(VerifyRequest(proof, publicSignals), backend, coin);
      && (r.Done? <==> reply.success)
      && (r.Done? ==> (r.value.isValid <==> reply.verificationResult == Some(true)))
      && (r.Done? ==> r.value.compliance == r.value.isValid)
    ensures r.Thrown? ==> r.message != ""
  {
    var reply := CallSpartanService(VerifyRequest(proof, publicSignals), backend, coin);
    if !reply.success then
      Thrown(ErrorText(reply.error, "Spartan proof verification failed"))
    else
      var ok := reply.verificationResult == Some(true);
      Done(VerifyResult(ok, ok))
  }

  // ---------------------------------------------------------------------------
  // serve

  const InvalidJsonMessage := "Invalid JSON in request body"
  const MissingGenerateInputs := "Missing accounts, accountTypes, or accountTypeLimits for proof generation"
  const MissingVerifyInputs := "Missing proof or publicSignals for verification"

  /** The reply to any thrown error: status 500 and only an error message. */
  function ErrorResponse(message: string): HttpResponse {
    HttpResponse(500, Some(ProofResponse(false, None, None, None, Some(message), None)))
  }

  /** `!requestData.proof || !requestData.publicSignals` fails verification. */
  predicate HasVerifyInputs(req: ProofRequest) {
    req.proof.Some? && TextTruthy(req.proof.value) && req.publicSignals.Some?
  }

  predicate HasGenerateInputs(req: ProofRequest) {
    req.accounts.Some? && req.accountTypes.Some? && req.accountTypeLimits.Some?
  }

  /**
   * The request handler. `body` is `None` when the body is not JSON. Every
   * thrown error becomes status 500 with `success == false` and only `error`.
   */
  function Serve(httpMethod: string, body: Option<ProofRequest>, backend: Backend, coin: bool): (r: HttpResponse)
    ensures httpMethod == "OPTIONS" ==> r == HttpResponse(200, None)
    ensures httpMethod != "OPTIONS" ==> r.body.Some? && (r.status == 200 <==> r.body.value.success)
    ensures r.status == 200 || r.status == 500
    ensures r.body.Some? && r.body.value.success ==> r.body.value.error.None? && r.body.value.metadata.Some?
    ensures r.body.Some? && !r.body.value.success ==>
      && r.status == 500
      && r.body.value.error.Some? && r.body.value.error.value != ""
      && r.body.value.proof.None? && r.body.value.publicSignals.None?
      && r.body.value.verificationResult.None? && r.body.value.metadata.None?
  {
    if httpMethod == "OPTIONS" then HttpResponse(200, None)
    else if body.None? then ErrorResponse(InvalidJsonMessage)
    else
      var req := body.value;
      if req.operation == "generate" then
        if !HasGenerateInputs(req) then ErrorResponse(MissingGenerateInputs)
        else
          match GenerateProof(req.accounts.value, req.accountTypes.value, req.accountTypeLimits.value,
                              req.allCompliant.GetOr(false), backend, coin)
          case Thrown(m) => ErrorResponse(m)
          case Done(g) =>
            HttpResponse(200, Some(ProofResponse(true, g.proof, g.publicSignals, None, None, Some(g.metadata))))
      else if req.operation == "verify" then
        if !HasVerifyInputs(req) then ErrorResponse(MissingVerifyInputs)
        else
          match VerifyProof(req.proof.value, req.publicSignals.value, backend, coin)
          case Thrown(m) => ErrorResponse(m)
          case Done(v) =>
            HttpResponse(200, Some(ProofResponse(true, None, None, Some(v.isValid && v.compliance), None,
                                                 Some(Metadata(Protocol(backend), 0, None, None)))))
      else
        ErrorResponse("Unknown operation: " + req.operation)
  }

  // ---------------------------------------------------------------------------
  // Properties

  /** The simulated prove verdict is the all-or-nothing rule, with `>` as the violation. */
  lemma FallbackProveVerdict(w: seq<int>, l: seq<Bound>, types: Option<seq<string>>, coin: bool)
    ensures var r := FallbackSimulation(SpartanRequest("prove", Some(w), types, Some(l), None, None), coin);
      && (r.publicSignals == Some(["1"]) <==> forall i :: 0 <= i < |w| ==> !Exceeds(w[i], EffectiveLimit(l, i)))
      && (r.publicSignals == Some(["0"]) <==> exists i :: 0 <= i < |w| && Exceeds(w[i], EffectiveLimit(l, i)))
  {
  }

  /** An empty batch, or a prove request missing either array, is reported compliant. */
  lemma FallbackVacuousBatch(request: SpartanRequest, coin: bool)
    requires request.operation == "prove"
    requires request.witnessData.None? || request.accountLimits.None? || request.witnessData == Some([])
    ensures FallbackSimulation(request, coin).publicSignals == Some(["1"])
  {
  }

  /**
   * Verifying a simulated proof returns the compliance bit of the batch it was
   * made for, whatever the random verdict for malformed proofs would be.
   */
  lemma FallbackRoundTrip(request: SpartanRequest, coin: bool, verifyCoin: bool)
    requires request.operation == "prove"
    ensures var p := FallbackSimulation(request, coin);
      var v := FallbackSimulation(VerifyRequest(p.proof.value, p.publicSignals.value), verifyCoin);
      && p.publicSignals == Some([ComplianceBit(WitnessCompliant(request.witnessData, request.accountLimits))])
      && v.verificationResult == Some(WitnessCompliant(request.witnessData, request.accountLimits))
  {
    var c := WitnessCompliant(request.witnessData, request.accountLimits);
    var proof := SimulatedProof(c);
    assert Member(proof, "compliance") == Value(Some(JBool(c)));
  }

  /**
   * A verify request whose proof text does not parse gets the random verdict.
   * `Chars` stands for text that `JSON.parse` rejects by the model's
   * convention; the lemma says nothing about a string such as `{}` that would
   * parse.
   */
  lemma FallbackMalformedProof(chars: string, signals: seq<string>, coin: bool)
    requires chars != ""
    ensures FallbackSimulation(VerifyRequest(Chars(chars), signals), coin).verificationResult == Some(coin)
  {
  }

  /** The arrays of a prove request agree with the batch rule of the request's limit table. */
  lemma ProveRequestMatchesBatchRule(accounts: seq<Account>, table: map<string, int>)
    ensures var req := ProveRequest(accounts, table);
      WitnessCompliant(req.witnessData, req.accountLimits) <==> BatchCompliant(accounts, table)
  {
    var req := ProveRequest(accounts, table);
    var w, l := req.witnessData.value, req.accountLimits.value;
    forall i | 0 <= i < |accounts|
      ensures EffectiveLimit(l, i) == LimitFor(table, TypeOrDefault(accounts[i]))
    {
    }
  }

  /** The table the front end's account categories define, keyed by wire identifier. */
  function StandardLimits(): map<string, int> {
    map[AccountTypes.TypeId(AccountTypes.Individual) := AccountTypes.Limit(AccountTypes.Individual),
        AccountTypes.TypeId(AccountTypes.Association) := AccountTypes.Limit(AccountTypes.Association),
        AccountTypes.TypeId(AccountTypes.LargeCondominium) := AccountTypes.Limit(AccountTypes.LargeCondominium)]
  }

  /** The account's category names one of the table's categories (or is absent). */
  predicate KnownType(a: Account) {
    AccountTypes.ParseTypeId(TypeOrDefault(a)).Some?
  }

  /** The category an account is checked under: its own, or Individual when it has none. */
  function CheckedType(a: Account): AccountTypes.AccountType {
    AccountTypes.ParseTypeId(TypeOrDefault(a)).GetOr(AccountTypes.Individual)
  }

  /**
   * Given the category table, the edge function's batch rule is the Article
   * R221-2 rule: every account at most the ceiling of its category.
   */
  lemma StandardTableCompliance(accounts: seq<Account>)
    requires forall i :: 0 <= i < |accounts| ==> KnownType(accounts[i])
    ensures BatchCompliant(accounts, StandardLimits()) <==>
      forall i :: 0 <= i < |accounts| ==>
        AccountTypes.Complies(accounts[i].balance, CheckedType(accounts[i]))
  {
    forall i | 0 <= i < |accounts|
      ensures LimitFor(StandardLimits(), TypeOrDefault(accounts[i]))
           == Finite(AccountTypes.Limit(CheckedType(accounts[i])))
    {
      assert KnownType(accounts[i]);
      var t := CheckedType(accounts[i]);
      assert TypeOrDefault(accounts[i]) == AccountTypes.TypeId(t);
    }
  }

  /** Request for the generate operation with every input present. */
  function GenerateRequest(accounts: seq<Account>, accountTypes: map<string, int>, limits: map<string, int>): ProofRequest {
    ProofRequest("generate", Some(accounts), None, None, Some(accountTypes), Some(limits), None)
  }

  /** Backends under which every Spartan call is simulated. */
  ghost predicate Simulated(backend: Backend) {
    backend.Unconfigured? || (backend.Configured? && forall r :: backend.remote(r).None?)
  }

  /**
   * End to end through the handler: generating a proof for a batch and then
   * verifying it returns the batch's compliance bit, both in the public
   * signals and as the verification result.
   */
  lemma ServeRoundTrip(accounts: seq<Account>, accountTypes: map<string, int>, limits: map<string, int>,
                       backend: Backend, coin: bool, verifyCoin: bool)
    requires Simulated(backend)
    ensures var g := Serve("POST", Some(GenerateRequest(accounts, accountTypes, limits)), backend, coin);
      && g.status == 200
      && g.body.value.publicSignals == Some([ComplianceBit(BatchCompliant(accounts, limits))])
      && g.body.value.metadata.value.accountsVerified == |accounts|
      && g.body.value.proof.Some?
      && var vreq := ProofRequest("verify", None, g.body.value.proof, g.body.value.publicSignals, None, None, None);
         var v := Serve("POST", Some(vreq), backend, verifyCoin);
         v.status == 200 && v.body.value.verificationResult == Some(BatchCompliant(accounts, limits))
  {
    var req := ProveRequest(accounts, limits);
    ProveRequestMatchesBatchRule(accounts, limits);
    assert CallSpartanService(req, backend, coin) == FallbackSimulation(req, coin);
    FallbackRoundTrip(req, coin, verifyCoin);
    var p := FallbackSimulation(req, coin);
    assert CallSpartanService(VerifyRequest(p.proof.value, p.publicSignals.value), backend, verifyCoin)
        == FallbackSimulation(VerifyRequest(p.proof.value, p.publicSignals.value), verifyCoin);
  }

  /**
   * An account whose category is named after an `Object.prototype` member and
   * has no entry in the limit table is checked against the inherited
   * non-number, so it complies whatever its balance, and a generated proof
   * of it says "1".
   */
  lemma InheritedCategoryPassesAnyBalance(a: Account, accountTypes: map<string, int>, table: map<string, int>,
                                          backend: Backend, coin: bool)
    requires InheritedName(TypeOrDefault(a)) && TypeOrDefault(a) !in table
    requires Simulated(backend)
    ensures BatchCompliant([a], table)
    ensures Serve("POST", Some(GenerateRequest([a], accountTypes, table)), backend, coin).body.value.publicSignals
         == Some(["1"])
  {
    ServeRoundTrip([a], accountTypes, table, backend, coin, coin);
  }

  /**
   * With empty tables, a balance of 500000 is reported compliant under the
   * category "constructor" and non-compliant under "individual".
   */
  lemma ConstructorCategoryExample(coin: bool)
    ensures Serve("POST", Some(GenerateRequest([Account(500000, "s", Some("constructor"))], map[], map[])),
                  Unconfigured, coin).body.value.publicSignals == Some(["1"])
    ensures Serve("POST", Some(GenerateRequest([Account(500000, "s", Some("individual"))], map[], map[])),
                  Unconfigured, coin).body.value.publicSignals == Some(["0"])
  {
    var c, d := Account(500000, "s", Some("constructor")), Account(500000, "s", Some("individual"));
    assert InheritedName("constructor");
    InheritedCategoryPassesAnyBalance(c, map[], map[], Unconfigured, coin);
    ServeRoundTrip([d], map[], map[], Unconfigured, coin, coin);
    assert !InheritedName("individual");
    assert Exceeds(d.balance, LimitFor(map[], TypeOrDefault(d)));
  }

  /** The request's `allCompliant` flag never changes the reply. */
  lemma AllCompliantIgnored(req: ProofRequest, flag: Option<bool>, httpMethod: string, backend: Backend, coin: bool)
    ensures Serve(httpMethod, Some(req), backend, coin) == Serve(httpMethod, Some(req.(allCompliant := flag)), backend, coin)
  {
  }

  /**
   * Generation fails with the validation message unless all three inputs are
   * present; with every input present, a simulated backend always succeeds.
   */
  lemma GenerateNeedsAllInputs(req: ProofRequest, backend: Backend, coin: bool)
    requires req.operation == "generate"
    ensures !HasGenerateInputs(req) ==>
      Serve("POST", Some(req), backend, coin) == ErrorResponse(MissingGenerateInputs)
    ensures HasGenerateInputs(req) && Simulated(backend) ==>
      Serve("POST", Some(req), backend, coin).status == 200
  {
    if HasGenerateInputs(req) && Simulated(backend) {
      var preq := ProveRequest(req.accounts.value, req.accountTypeLimits.value);
      assert CallSpartanService(preq, backend, coin) == FallbackSimulation(preq, coin);
    }
  }

  /** Verification fails unless the proof is a non-empty string and the signals are present. */
  lemma VerifyNeedsProofAndSignals(req: ProofRequest, backend: Backend, coin: bool)
    requires req.operation == "verify"
    ensures !HasVerifyInputs(req) ==> Serve("POST", Some(req), backend, coin) == ErrorResponse(MissingVerifyInputs)
    ensures HasVerifyInputs(req) && Simulated(backend) ==>
      Serve("POST", Some(req), backend, coin).status == 200
  {
  }

  /** Any other operation is rejected with its name in the message. */
  lemma UnknownOperationRejected(req: ProofRequest, backend: Backend, coin: bool)
    requires req.operation != "generate" && req.operation != "verify"
    ensures Serve("POST", Some(req), backend, coin) == ErrorResponse("Unknown operation: " + req.operation)
  {
  }
}
